=== FILE: README.md ===
# matopy backend, modelled in Dafny

This project models the code-generation backend of matopy (`matopy/backend.py`), the
last stage of a MATLAB-to-Python translator. The backend walks a resolved syntax tree
and prints Python source text. Every node kind has a rule that builds its text from
its children's texts. The model keeps those rules, their order of cases, their
constants and their quirks. It replaces the backend's in-place mutations with
explicit values:

- the module-wide `STRUCTS` set (bases already normalised with `check_struct`) is
  threaded through every statement;
- identifier renaming, the `pass` appended to empty blocks, the else-if wrap and the
  `varargin` rewrite are stated as functions of the input tree.

Modules, one per file:

| file | module | contents |
|---|---|---|
| wrappers.dfy | `Wrappers` | `Option`, `Result` and the one error: a missing operand |
| text.dfy | `Text` | joining, indentation, substring tests, `strip`, integer rendering |
| ast.dfy | `Ast` | the node kinds: `Expr` (values) and `Stmt` (statements) |
| tables.dfy | `Tables` | the operator table, the reserved-name set, renaming |
| exprgen.dfy | `ExprGen` | the expression rules (`Gen`, `GenOp`, the call convention) |
| stmtgen.dfy | `StmtGen` | the statement rules, the assignment rule and its six cases |
| exprprops.dfy | `ExprProps` | folding, range forms, call sites, renaming, indexing |
| exprforms.dfy | `ExprForms` | the remaining expression rules |
| stmtprops.dfy | `StmtProps` | blocks, else-if, the assignment cases, struct normalisation, headers |
| stmtforms.dfy | `StmtForms` | loops, try, return, global, keywords; who touches the struct set |
| structflow.dfy | `StructFlow` | how the struct set evolves along a statement sequence |
| retranslation.dfy | `Retranslation` | translating a tree a second time, after the first translation changed it |

Translation is a total function to `Result`. A rule that indexes a missing operand
(Python's `IndexError`) returns `Err(MissingOperand(op))`, and the error propagates
to the caller. Number literals are integers. The resolver's answers are stored on the
nodes:

- `ArrayRef.defProps` is the `props` of the base's definition;
- `ArrayRef.baseHasDefs` says whether the base has definitions.

A call's `nargout` of 0 stands for an absent output count.

## Model

| member | source | states |
|---|---|---|
| Tables.Rename | matopy/backend.py:280-281 | a name changes exactly when it is reserved, gains exactly one `_` when it does, and the result is never reserved |
| Tables.RenameIdempotent | matopy/backend.py:50-65 | renaming a renamed name changes nothing, because no reserved name ends in `_` |
| Tables.NoReservedEndsWithUnderscore | matopy/backend.py:50-65 | no reserved name ends in `_` |
| Tables.RenameCollision | matopy/backend.py:280-281 | a user name `len_` and a user name `len` print the same text |
| Tables.RangeOpUnmapped | matopy/backend.py:24-36 | the range operator has no table entry |
| Tables.ElementwiseCollapse | matopy/backend.py:29-35 | elementwise power, multiply and divide print as the plain Python operators |
| Text.IsSubstring | matopy/backend.py:86 | the `in` test on strings holds exactly when the needle occurs at some position |
| Text.SubstringOfMW | matopy/backend.py:86 | a props value passes the `in "MW"` test exactly when it is "", "M", "W" or "MW" |
| Text.SubstringOfTilde | matopy/backend.py:136 | an operator passes the `in "~"` test exactly when it is "" or "~" |
| Text.Strip | matopy/backend.py:115 | the result is a slice of the input with no character `str.isspace` accepts at either end, everything cut away is such a character, and all-whitespace input strips to "" |
| Text.NatToString | matopy/backend.py:397-401 | a natural number renders as one or more decimal digits with no leading zero, one digit exactly below ten |
| Text.NatToStringRoundTrip | matopy/backend.py:397-401 | the decimal rendering of a natural number reads back as the number |
| Text.JoinSnoc | matopy/backend.py:222 | joining a list with one more element appends the separator and that element |
| Text.JoinPrefixed | matopy/backend.py:430-431 | a separator followed by the separator-joined list is the list with every element preceded by the separator |
| ExprProps.IntToStringRoundTrip | matopy/backend.py:397-401 | `str(i)` of any integer is an optional minus sign and digits that read back as `i` |
| ExprProps.AddFolds | matopy/backend.py:76-77 | adding two number literals prints one integer literal that reads back as their sum |
| ExprProps.AddInfix | matopy/backend.py:78-79 | any other addition prints `(a+b)` from its operand texts |
| ExprProps.RangeForms | matopy/backend.py:162-175 | the range operator prints ":" with no operands, `a:b` for two, and `a:b:step` for three, with the middle operand last |
| ExprProps.RangeOneOperandFallsThrough | matopy/backend.py:206-209 | a one-operand range node is not rejected: it prints `:: a` through the unary rule |
| ExprProps.RangeManyOperandsFallsThrough | matopy/backend.py:210-217 | a range node with more than three operands is not rejected: without a `ret` it prints its operands joined by ` :: `, with one it prints `r=::(a,b,...)`, and it fails with the `ret`'s error first, then the first failing operand's |
| ExprProps.CallSiteConvention | matopy/backend.py:5-7 | `eval` becomes `exec_`; any other callee receives its argument texts followed by `nargout=N` exactly when N > 1, joined by commas, whether or not there are other arguments |
| ExprProps.CallNode | matopy/backend.py:259-270 | a call node prints by the convention on its callee and argument texts, and fails exactly when one of them fails |
| ExprProps.IdentRename | matopy/backend.py:278-284 | an identifier prints as its name plus `_` when reserved and as its name otherwise; with an initialiser it prints that sanitised name, `=` and the initialiser's text, or fails with the initialiser's error; the renamed node prints the same again |
| ExprProps.ArrayRefForm | matopy/backend.py:82-89 | indexing prints `x[i]` when the base's props is a substring of "MW", and `take(x,i)` otherwise |
| ExprProps.GenAllElementwise | matopy/backend.py:222 | a list translates exactly when each element does, element by element, in order |
| ExprProps.GenAllCongruent | matopy/backend.py:222 | lists whose elements print alike print alike |
| ExprProps.GenRowsCongruent | matopy/backend.py:386-387 | row lists whose rows print alike print alike, in both matrix forms |
| ExprForms.GenAllAppend | matopy/backend.py:222 | translating a concatenated list is translating each part, and the first failure wins |
| ExprForms.GenRowsFlatten | matopy/backend.py:387 | translating a matrix row by row equals translating its flattened element list |
| ExprForms.MatrixEmpty | matopy/backend.py:384-385 | the empty matrix prints `matlabarray([])` |
| ExprForms.MatrixOfStrings | matopy/backend.py:386-387 | a matrix holding a string prints all its elements, in row order, joined by ` + ` |
| ExprForms.MatrixFirstRowOnly | matopy/backend.py:388-389 | any other matrix prints from its first row alone, so later rows do not change the text |
| ExprForms.StrForm | matopy/backend.py:434-436 | a string literal prints quoted, and the text between the quotes is the literal |
| ExprForms.NumberForm | matopy/backend.py:397-401 | a number literal prints as an integer literal that reads back as its value |
| ExprForms.LogicalForm | matopy/backend.py:371-376 | a logical literal prints `false` exactly when its value is zero, `true` otherwise |
| ExprForms.SubNeverFolds | matopy/backend.py:439-441 | subtraction always prints `(a-b)`, even for two numbers, where addition would fold |
| ExprForms.TransposeForm | matopy/backend.py:444-446 | transposition prints the operand text followed by `.T`, and fails exactly when the operand fails |
| ExprForms.GenOne | matopy/backend.py:222 | a one-element list prints its element |
| ExprForms.GenTwo | matopy/backend.py:222 | a two-element list prints its elements around the separator |
| ExprForms.CellArrayForm | matopy/backend.py:103-105 | a cell array wraps the comma-joined list of its elements in `cellarray([...])` |
| ExprForms.ConcatRowForm | matopy/backend.py:123-126 | a one-row concatenation list brackets the row's comma-joined list |
| ExprForms.CellRefForm | matopy/backend.py:108-110 | a cell reference prints like a native array reference |
| ExprForms.BuiltinForm | matopy/backend.py:97-100 | a builtin prints like a call with no output count |
| ExprForms.LambdaForm | matopy/backend.py:302-304 | a lambda prints its parameter list, then its body |
| ExprForms.NotForms | matopy/backend.py:136-137 | `~` and the empty operator print `logical_not(a)` of the first operand whatever follows it, fail with that operand's error, and with no operand fail as a missing operand of `~` or of the empty operator respectively |
| ExprForms.BangIsKeyword | matopy/backend.py:208-209 | `!` is not caught by the negation test and prints the table keyword `not a` |
| ExprForms.ElementwiseForms | matopy/backend.py:139-149 | for any number of operands, `&` and `|` print `logical_and(...)` and `logical_or(...)` around the comma-joined text of the whole operand list, and fail exactly as that list fails |
| ExprForms.ShortCircuitForms | matopy/backend.py:142-161 | `&&` and `||` print the native keywords between the first two operands and fail as a missing operand with one operand or none; `\` prints `linsolve` |
| ExprForms.FieldAccessForms | matopy/backend.py:186-198 | a static field prints after its object; a parenthesised field prints as `getattr`, and fails without a name |
| ExprProps.GenericRoute | matopy/backend.py:206-217 | an operator no fixed rule names reaches the generic rules |
| ExprForms.GenericUnaryForms | matopy/backend.py:206-209 | with no operand the operator itself prints; with one, its table mapping before the operand |
| ExprForms.GenericRetForm | matopy/backend.py:210-215 | for any two or more operands and a `ret`, the unmapped operator prints as `r=op(a,b,...)` over the comma-joined operand list; the `ret` is translated first, so its error wins, then the list's |
| ExprForms.GenericInfixForm | matopy/backend.py:216-217 | without a `ret`, two or more operands print joined by the operator's table mapping in spaces (`a op b` for two), and the first failing operand's error is the result |
| ExprForms.OtherOperatorForms | matopy/backend.py:154-203 | `@` prints its operand, `parens` parenthesises it, `:` prints `arange`, `end` prints `end()` whatever its operands |
| StmtGen.Classify | matopy/backend.py:326-365 | each of the first five assignment cases is chosen exactly when its guard holds and no earlier guard does |
| StmtGen.GenStmts | matopy/backend.py:431 | a statement sequence prints one text per statement |
| StmtProps.PrefixedAppend | matopy/backend.py:430-431 | appending a statement to a block appends one separator and its text |
| StmtProps.BlockShape | matopy/backend.py:423-431 | a block prints every statement after a newline and four spaces per level, with `pass` added when all are trivial, and is never empty |
| StmtProps.TrivialBlockEndsInPass | matopy/backend.py:425-429 | a block of only null statements and comments ends in `pass` on its own line |
| StmtProps.EmptyBlockIsPass | matopy/backend.py:423-431 | the empty block prints exactly one indented `pass` |
| StmtForms.IfForm | matopy/backend.py:285-297 | an `if` with no else prints `if c:` and the then-branch one level deeper, prints exactly when the condition and the branch do, and hands on the branch's struct set |
| StmtForms.IfElseForm | matopy/backend.py:285-297 | an `if` whose else is a non-empty block or a plain statement prints a line break, `else:` at the `if`'s own indentation, and the else branch one level deeper, translated from the set the then-branch left; it prints exactly when the condition and both branches do |
| StmtForms.EmptyElseDropped | matopy/backend.py:291 | an empty else block fails the truthiness test and is dropped: the `if` prints exactly as one with no else |
| StmtProps.EmptyIfBodyIsPass | matopy/backend.py:287-292 | an `if` with an empty body prints `pass` one level deeper |
| StmtProps.SingletonBlock | matopy/backend.py:423-431 | a one-statement block of a non-trivial statement is that statement on its own indented line |
| StmtProps.ElseIfFlattened | matopy/backend.py:293-299 | a chained else-if prints `else:` and then the inner `if` on its own line one level deeper |
| StmtProps.NormaliseOne | matopy/backend.py:366-367 | one newly seen base puts one `check_struct` line before the store; none leaves it alone |
| StmtProps.AddFieldBase | matopy/backend.py:315-320 | a field target's base is recorded, and listed as new only when it was not seen before |
| StmtProps.LetKeeps | matopy/backend.py:309-312 | an assignment whose store records no base prints the store and the line annotation and leaves the struct set alone |
| StmtProps.LetTextRecords | matopy/backend.py:366-368 | one base recorded by a store yields one `check_struct` line before the store when the base is new and none otherwise, and the grown set |
| StmtProps.LetRecords | matopy/backend.py:366-368 | an assignment whose store records one base prints a `check_struct` line for it first exactly when it is new, and hands on the grown set |
| StmtProps.FieldStoreNormalises | matopy/backend.py:326-340 | a field store whose selector is not an operator node prints the object text, then the selector text (no dot of its own), then ` = copy(v)`, preceded by `s = check_struct(s)` exactly when `s` is new, and records `s` |
| StmtProps.Pair | matopy/backend.py:431 | two statements in sequence: the second starts from the struct set the first left |
| StmtProps.SetattrStore | matopy/backend.py:326-333 | a `parens` selector with a name stores through `setattr(obj,name,value)`, preceded by `s = check_struct(s)` exactly when the object is new, followed by the line annotation, and records the object |
| StmtProps.SetattrFallbackFails | matopy/backend.py:327-339 | when the `setattr` form fails for a `parens` selector, the copy-form fallback fails as well, so the except branch never produces text for such a selector |
| StmtProps.OperatorSelectorStoresNothing | matopy/backend.py:326-340 | a field selector that is an operator other than `parens` gives an empty store, though the base is still recorded |
| StmtProps.IdentAssignCopies | matopy/backend.py:341-342 | identifier-to-identifier assignment always prints `T=copy(V)`, even onto a write target |
| StmtProps.WriteTargetWraps | matopy/backend.py:343-347 | a write target assigned a non-identifier prints `T = matlabarray(V)` |
| StmtProps.UndefinedBaseGrows | matopy/backend.py:348-354 | an indexed store to a base with no definitions prints the grow form, even when the value is `[]` |
| StmtProps.DefinedBaseDeletes | matopy/backend.py:355-362 | a defined base assigned `[]` prints `name = name.delete(key)` |
| StmtProps.PlainIndexedStore | matopy/backend.py:363-365 | any other indexed store prints `T=V` and records nothing |
| StmtProps.SingletonListAdds | matopy/backend.py:321-323 | a one-element target list records what its element records |
| StmtProps.PlainStoreText | matopy/backend.py:363-365 | a target no earlier case claims prints `T=V` and records the field bases it contains |
| StmtProps.ListTargetRecordsFieldBase | matopy/backend.py:363-367 | a target list containing a field store takes the plain rule and still normalises the new object |
| StmtProps.FuncHeaderBinding | matopy/backend.py:240-256 | a function header binds `nargin` exactly when the last parameter is `varargin`, and empties the struct set |
| StmtProps.VarargParamPrinted | matopy/backend.py:244-245 | the variadic parameter prints as `*varargin` |
| StmtProps.CommentShape | matopy/backend.py:113-120 | a blank comment prints nothing; a `%` or `#` comment prints its stripped text character by character, each `%` replaced by `#` and every other character kept, so it starts with `#` and holds no `%`; other text is kept as written |
| StmtForms.StructsUnchanged | matopy/backend.py:67 | a statement with no assignment and no function header, however nested, leaves the struct set unchanged |
| StmtForms.StmtsUnchanged | matopy/backend.py:423-431 | so does a sequence of such statements |
| StmtForms.ForForm | matopy/backend.py:230-237 | a `for` loop prints when its variable, collection and body do; it iterates `collection.reshape(-1)`, its body one level deeper, and hands on the body's struct set |
| StmtForms.ForEmptyBody | matopy/backend.py:230-237 | so an empty `for` body prints `pass` one level deeper |
| StmtForms.WhileForm | matopy/backend.py:459-462 | a `while` loop prints when its condition and body do, with a line break after the header and after the body one level deeper, and hands on the body's struct set |
| StmtForms.WhileEmptyBody | matopy/backend.py:459-462 | so an empty `while` body prints `pass` between the two line breaks |
| StmtForms.TryForm | matopy/backend.py:449-456 | a try block prints when both parts do, the second part starting from the set the first left; `finally:` sits at the block's own indentation and both parts one level deeper |
| StmtForms.TryEmptyBodies | matopy/backend.py:449-456 | so empty parts each print `pass` |
| StmtForms.ReturnForms | matopy/backend.py:415-420 | a bare return prints `return`; a return with a value prints the value after the keyword |
| StmtForms.GlobalForm | matopy/backend.py:409-412 | a global declaration prints the comma-joined names after `global` |
| StmtForms.ExprStmtForm | matopy/backend.py:225-227 | an expression statement prints its expression |
| StmtForms.LoopExitForms | matopy/backend.py:92-131 | `break` and `continue` print their keywords |
| StmtForms.PlaceholderForms | matopy/backend.py:392-406 | `pass` prints its keyword and the null statement prints nothing |
| StmtForms.BackendEmptyProgram | matopy/backend.py:39-40 | the entry point translates at level 1, so an empty program is one `pass` four spaces in |
| StructFlow.AddStructsGrows | matopy/backend.py:315-324 | recording the field bases of a target never removes a base from the set |
| StructFlow.StructsGrow | matopy/backend.py:67 | a statement with no function header anywhere inside it only adds to the struct set |
| StructFlow.StmtsGrow | matopy/backend.py:423-431 | so does a sequence of such statements |
| StructFlow.GenStmtsAppend | matopy/backend.py:429-431 | a concatenated sequence prints exactly when its first part does and the second part does from the set the first left; the texts are concatenated |
| StructFlow.SecondStoreSkipsCheck | matopy/backend.py:318-320 | in a sequence, a field store whose selector is not an operator node, to an object already stored to earlier (by the same kind of store) with no function header between, prints the object text, then the selector text, then ` = copy(v)`, with no `check_struct` line, and the object stays in the set |
| StructFlow.FunctionBoundaryResets | matopy/backend.py:243 | after a function header and statements that write no struct, the first field store whose selector is not an operator node prints a `check_struct` line for its object, and the set is then that object alone |
| Retranslation.RenameAllShape | matopy/backend.py:280-281 | renaming keeps every node kind, operator and operand count |
| Retranslation.RenameAllSameText | matopy/backend.py:278-284 | an expression whose identifiers were renamed by a first translation prints the same text again |
| Retranslation.EachSameText | matopy/backend.py:222 | so does every list of such expressions |
| Retranslation.RowsSameText | matopy/backend.py:386-389 | so do matrix rows, in both matrix forms |
| Retranslation.OpSameText | matopy/backend.py:134-217 | the operator rule prints a renamed node as before |
| Retranslation.OpAlike | matopy/backend.py:134-217 | two operator nodes that agree on everything the rule reads print alike |
| Retranslation.OpLogicalAlike | matopy/backend.py:136-161 | that holds for the logical and division cases |
| Retranslation.OpRangeAlike | matopy/backend.py:162-177 | that holds for the range cases |
| Retranslation.OpOtherAlike | matopy/backend.py:179-203 | that holds for `end`, member access and `parens` |
| Retranslation.GenStmtsSnoc | matopy/backend.py:429-431 | a sequence with one more statement prints as before plus that statement, from the struct set the prefix left |
| Retranslation.PassAppendStable | matopy/backend.py:425-429 | a block that received a `pass` prints the same block again, with no second `pass` |
| Retranslation.ElseIfWrapStable | matopy/backend.py:295-296 | a wrapped else-if prints the same text as before the wrap |
| Retranslation.VarargRewriteNotStable | matopy/backend.py:244-246 | after the rewrite a header no longer names `varargin`, so a second translation drops the `nargin` binding |

## Left out

- Logging: diagnostics only; it does not affect the output.
- Options: `no_numbers` and `filename` are plain parameters of the line annotation.
- The decorator that attaches rules to node classes is replaced by a match over the node kinds.
- The resolver (`get_def_node`, `defs`) is not part of this model. Its answers are fields on the `ArrayRef` node.
- The runtime helpers named in the output are text only: `copy`, `matlabarray`, `check_struct`, `take`, `linsolve`, `logical_and`, `end`, `exec_`, `load_all_vars`.
- Number literals are integers; Python float arithmetic and `str()` of floats are not modelled.
- The order in which several new bases are normalised in one assignment comes from Python set iteration, which is unspecified. The model uses insertion order, and the normalisation property is proved for one field target.
- An identifier's `init` and a return statement's `ret` are truthiness tests, modelled as `Option`; `nargout`'s truthiness is modelled as `0`. An operator node's `ret` is tested with `hasattr`, so there `Some` stands for "the attribute is present". `node.py` is not part of this model, so the truthiness of an else branch is taken as "not an empty statement list": an empty else block is dropped and prints nothing, not even `else:` with a `pass`.
- `str(node)`, used to detect `varargin`, is read as the identifier's name.
- The function-header rule prints only the header, as the source does. Function bodies are printed by whatever encloses the header.
- `persistent_stmt` shares the `global` rule. It is not a separate node kind here.
- A matrix node's operands are read as its rows, each a list of elements, so a non-string matrix with several rows prints its first row only. `node.py` is not part of this model; if the parser wraps all rows in one `concat_list` operand, no row is dropped. The datatype can represent that reading too: a single row.
- Recursive checks whose subclass relations live in `node.py` (`isinstance`) are read as exact node kinds.
- Renaming stability is proved for expressions. For whole statement trees, only the `pass`, else-if and `varargin` changes are related to a second translation.

=== FILE: ast.dfy ===
/** The resolved syntax tree the backend consumes. The Python backend has one untyped
    node hierarchy; here value-producing nodes (Expr) and statements (Stmt) are two
    closed datatypes, because only statements touch the struct-seen set. */
module Ast {
  import opened Wrappers

  datatype Expr =
    | Number(value: int)                              // node.number (integers only)
    | Str(text: string)                               // node.string
    | Logical(value: int)                             // node.logical
      /** node.ident; `props` is the property the resolver assigned ("W", "M", ...). */
    | Ident(name: string, init: Option<Expr>, props: string)
      /** node.expr: an operator with its operand list and optional `ret` target. */
    | Op(op: string, args: seq<Expr>, ret: Option<Expr>)
    | Add(left: Expr, right: Expr)                    // node.add
    | Sub(left: Expr, right: Expr)                    // node.sub
    | Transpose(arg: Expr)                            // node.transpose
      /** node.arrayref; `defProps` is the props of the base's defining node and
          `baseHasDefs` whether the resolver found any definition of the base. */
    | ArrayRef(base: Expr, index: seq<Expr>, defProps: string, baseHasDefs: bool)
    | CellArrayRef(base: Expr, index: seq<Expr>)     // node.cellarrayref
    | Matrix(rows: seq<Row>)                          // node.matrix (a concat_list of rows)
    | CellArray(items: seq<Expr>)                     // node.cellarray
      /** node.funcall; `nargout` 0 stands for an absent output count. */
    | Funcall(callee: Expr, args: seq<Expr>, nargout: nat)
    | ExprList(items: seq<Expr>)                      // node.expr_list
    | ConcatList(rows: seq<Row>)                      // node.concat_list
    | Builtin(name: string, args: seq<Expr>)          // node.builtins subclasses
    | Lambda(params: seq<Expr>, body: Expr)           // node.lambda_expr

  /** One row of a matrix literal: the expr_list between two semicolons. */
  datatype Row = Row(items: seq<Expr>)

  datatype Stmt =
      /** node.let: `ret = value` on source line `lineno`. */
    | Let(target: Expr, value: Expr, lineno: nat)
    | ExprStmt(expr: Expr)
    | StmtList(items: seq<Stmt>)
    | If(cond: Expr, thenS: Stmt, elseS: Option<Stmt>)
    | For(var_: Expr, iter: Expr, body: Stmt)
    | While(cond: Expr, body: Stmt)
    | TryCatch(tryS: Stmt, finallyS: Stmt)
      /** node.func_stmt: only the header is generated by this rule. */
    | FuncStmt(name: Expr, params: seq<Expr>)
    | Return(ret: Option<Expr>)
    | Comment(text: string)
    | Null
    | Pass
    | Break
    | Continue
    | Global(names: seq<Expr>)                        // node.global_stmt and node.persistent_stmt

  /** The statements a block may consist of without needing a `pass`. */
  predicate IsTrivial(s: Stmt)
  {
    s.Null? || s.Comment?
  }

  /** Python truthiness of an else branch: an empty statement list is false. */
  predicate IsTruthy(s: Stmt)
  {
    !(s.StmtList? && |s.items| == 0)
  }
}

=== FILE: exprforms.dfy ===
/** The remaining expression rules, each related to a neighbouring rule or to an
    independent reading of its output. */
module ExprForms {
  import opened Wrappers
  import opened Text
  import opened Tables
  import opened Ast
  import opened ExprGen
  import opened ExprProps

  /** Every element of every row, row after row. */
  function Flatten(rows: seq<Row>): (r: seq<Expr>)
    ensures |rows| == 1 ==> r == rows[0].items
  {
    if |rows| == 0 then [] else rows[0].items + Flatten(rows[1..])
  }

  /** Translating a concatenation translates the left part, then the right part. */
  lemma {:induction false} GenAllAppend(xs: seq<Expr>, ys: seq<Expr>)
    ensures GenAll(xs).Err? ==> GenAll(xs + ys) == Err(GenAll(xs).error)
    ensures GenAll(xs).Ok? && GenAll(ys).Err? ==> GenAll(xs + ys) == Err(GenAll(ys).error)
    ensures GenAll(xs).Ok? && GenAll(ys).Ok? ==> GenAll(xs + ys) == Ok(GenAll(xs).value + GenAll(ys).value)
    decreases |xs|
  {
    if |xs| == 0 {
      assert xs + ys == ys;
      if GenAll(ys).Ok? {
        assert [] + GenAll(ys).value == GenAll(ys).value;
      }
    } else {
      assert (xs + ys)[0] == xs[0];
      assert (xs + ys)[1..] == xs[1..] + ys;
      GenAllAppend(xs[1..], ys);
      var h := Gen(xs[0]);
      if h.Ok? && GenAll(xs[1..]).Ok? && GenAll(ys).Ok? {
        assert [h.value] + (GenAll(xs[1..]).value + GenAll(ys).value)
               == ([h.value] + GenAll(xs[1..]).value) + GenAll(ys).value;
      }
    }
  }

  /** The row-by-row translation is the translation of the flattened element list. */
  lemma {:induction false} GenRowsFlatten(rows: seq<Row>)
    ensures GenRows(rows) == GenAll(Flatten(rows))
    decreases |rows|
  {
    if |rows| > 0 {
      GenRowsFlatten(rows[1..]);
      GenAllAppend(rows[0].items, Flatten(rows[1..]));
    }
  }

  /** The empty matrix literal has its own text. */
  lemma MatrixEmpty()
    ensures Gen(Matrix([])) == Ok("matlabarray([])")
  {
  }

  /** A matrix holding any string is the ` + ` concatenation of all its elements in
      row order, and fails exactly when one of them fails. */
  lemma MatrixOfStrings(rows: seq<Row>)
    requires AnyStr(rows)
    ensures Gen(Matrix(rows)).Ok? <==> GenAll(Flatten(rows)).Ok?
    ensures GenAll(Flatten(rows)).Ok? ==> Gen(Matrix(rows)) == Ok(Join(GenAll(Flatten(rows)).value, " + "))
  {
    GenRowsFlatten(rows);
  }

  /** Any other matrix prints its first row only: later rows do not affect the text. */
  lemma MatrixFirstRowOnly(rows: seq<Row>)
    requires |rows| > 0 && !AnyStr(rows)
    ensures Gen(Matrix(rows)) == Gen(Matrix([rows[0]]))
  {
    var one := [rows[0]];
    assert one[0] == rows[0];
  }

  /** A string literal is quoted, and the quoted text reads back as the literal. */
  lemma StrForm(t: string)
    ensures Gen(Str(t)).Ok?
    ensures var r := Gen(Str(t)).value;
            |r| == |t| + 2 && r[0] == '\'' && r[|r| - 1] == '\'' && r[1..|r| - 1] == t
  {
  }

  /** A number literal prints as an integer literal that reads back as its value. */
  lemma NumberForm(v: int)
    ensures Gen(Number(v)).Ok?
    ensures IsIntLiteral(Gen(Number(v)).value) && ParseInt(Gen(Number(v)).value) == v
  {
    assert Gen(Number(v)) == Gen(Add(Number(v), Number(0)));
    AddFolds(v, 0);
  }

  /** A logical literal is `false` exactly when its value is zero. */
  lemma LogicalForm(v: int)
    ensures Gen(Logical(v)) == Ok("false") <==> v == 0
    ensures Gen(Logical(v)) == Ok("true") <==> v != 0
  {
  }

  /** Subtraction is never folded, unlike addition: it always prints the parenthesised
      difference of its operand texts. */
  lemma SubNeverFolds(a: Expr, b: Expr)
    requires Gen(a).Ok? && Gen(b).Ok?
    ensures Gen(Sub(a, b)) == Ok("(" + Gen(a).value + "-" + Gen(b).value + ")")
    ensures a.Number? && b.Number? ==> Gen(Sub(a, b)) != Gen(Add(a, b))
  {
    SubInfix(a, b);
    if a.Number? && b.Number? {
      AddNumbers(a, b);
      FoldedNotParenthesised(a.value + b.value);
      assert ("(" + Gen(a).value + "-" + Gen(b).value + ")")[0] == '(';
    }
  }

  lemma AddNumbers(a: Expr, b: Expr)
    requires a.Number? && b.Number?
    ensures Gen(Add(a, b)) == Ok(IntToString(a.value + b.value))
  {
  }

  lemma SubInfix(a: Expr, b: Expr)
    requires Gen(a).Ok? && Gen(b).Ok?
    ensures Gen(Sub(a, b)) == Ok("(" + Gen(a).value + "-" + Gen(b).value + ")")
  {
  }

  /** A rendered integer starts with a digit or a minus sign, never a parenthesis. */
  lemma FoldedNotParenthesised(i: int)
    ensures |IntToString(i)| > 0 && IntToString(i)[0] != '('
  {
    if i >= 0 {
      assert IsDigit(NatToString(i)[0]);
    }
  }

  /** Transposition appends the `.T` attribute to its operand's text. */
  lemma TransposeForm(a: Expr)
    ensures Gen(Transpose(a)).Ok? <==> Gen(a).Ok?
    ensures Gen(a).Ok? ==> (Gen(Transpose(a)).value[..|Gen(a).value|] == Gen(a).value
                            && Gen(Transpose(a)).value[|Gen(a).value|..] == ".T")
  {
  }

  /** The translation of one- and two-element lists. */
  lemma GenOne(a: Expr)
    requires Gen(a).Ok?
    ensures GenAll([a]) == Ok([Gen(a).value])
    ensures Join(GenAll([a]).value, ",") == Gen(a).value
  {
    assert [a][1..] == [];
    assert [Gen(a).value] + [] == [Gen(a).value];
  }

  lemma GenTwo(a: Expr, b: Expr, sep: string)
    requires Gen(a).Ok? && Gen(b).Ok?
    ensures GenAll([a, b]) == Ok([Gen(a).value, Gen(b).value])
    ensures Join(GenAll([a, b]).value, sep) == Gen(a).value + sep + Gen(b).value
  {
    assert [a, b][1..] == [b];
    GenOne(b);
    assert [Gen(a).value] + [Gen(b).value] == [Gen(a).value, Gen(b).value];
    assert [Gen(a).value, Gen(b).value][1..] == [Gen(b).value];
  }

  /** A cell array wraps the comma-joined list of its elements. */
  lemma CellArrayForm(items: seq<Expr>)
    ensures Gen(CellArray(items)).Ok? <==> Gen(ExprList(items)).Ok?
    ensures Gen(ExprList(items)).Ok? ==> Gen(CellArray(items)) == Ok("cellarray([" + Gen(ExprList(items)).value + "])")
  {
  }

  /** A one-row concatenation list brackets the row's comma-joined list. */
  lemma ConcatRowForm(row: seq<Expr>)
    requires GenAll(row).Ok?
    ensures Gen(ConcatList([Row(row)])) == Ok("[" + Gen(ExprList(row)).value + "]")
  {
    var rows := [Row(row)];
    assert rows[0] == Row(row) && rows[1..] == [];
    var x := "[" + Join(GenAll(row).value, ",") + "]";
    assert GenBracketedRows(rows) == Ok([x] + []);
    assert [x] + [] == [x];
  }

  /** A cell reference indexes like a native array reference. */
  lemma CellRefForm(base: Expr, items: seq<Expr>, props: string, defs: bool)
    requires IsSubstring(props, "MW")
    ensures Gen(CellArrayRef(base, items)) == Gen(ArrayRef(base, items, props, defs))
  {
  }

  /** A builtin prints like a call with no output count. */
  lemma BuiltinForm(name: string, items: seq<Expr>)
    requires name != "eval" && GenAll(items).Ok?
    ensures Gen(Builtin(name, items)) == Ok(CallText(name, GenAll(items).value, 0))
  {
  }

  /** A lambda prints its parameter list before its body. */
  lemma LambdaForm(params: seq<Expr>, body: Expr)
    requires GenAll(params).Ok? && Gen(body).Ok?
    ensures Gen(Lambda(params, body)) == Ok("lambda " + Gen(ExprList(params)).value + ": " + Gen(body).value)
  {
  }

  /** Unary negation: the empty operator and `~` are the substrings of "~", so both
      print the `logical_not` helper of the first operand, ignore any further operands,
      and fail without an operand. */
  lemma NotForms(es: seq<Expr>, ret: Option<Expr>)
    ensures |es| >= 1 && Gen(es[0]).Ok? ==> Gen(Op("~", es, ret)) == Ok("logical_not(" + Gen(es[0]).value + ")")
    ensures |es| >= 1 && Gen(es[0]).Ok? ==> Gen(Op("", es, ret)) == Ok("logical_not(" + Gen(es[0]).value + ")")
    ensures |es| >= 1 && Gen(es[0]).Err? ==> Gen(Op("~", es, ret)) == Gen(es[0]) && Gen(Op("", es, ret)) == Gen(es[0])
    ensures Gen(Op("~", [], ret)) == Err(MissingOperand("~"))
    ensures Gen(Op("", [], ret)) == Err(MissingOperand(""))
  {
    NotForm("~", es, ret);
    NotForm("", es, ret);
    NotForm("~", [], ret);
    NotForm("", [], ret);
  }

  lemma NotForm(op: string, es: seq<Expr>, ret: Option<Expr>)
    requires op == "~" || op == ""
    ensures |es| >= 1 && Gen(es[0]).Ok? ==> Gen(Op(op, es, ret)) == Ok("logical_not(" + Gen(es[0]).value + ")")
    ensures |es| >= 1 && Gen(es[0]).Err? ==> Gen(Op(op, es, ret)) == Gen(es[0])
    ensures |es| == 0 ==> Gen(Op(op, es, ret)) == Err(MissingOperand(op))
  {
    SubstringOfTilde(op);
    LogicalRoute(Op(op, es, ret));
  }

  /** `!` is not a substring of "~": it falls to the generic unary rule and prints the
      keyword the operator table maps it to. */
  lemma BangIsKeyword(a: Expr, ret: Option<Expr>)
    requires Gen(a).Ok?
    ensures Gen(Op("!", [a], ret)) == Ok("not " + Gen(a).value)
  {
    var e := Op("!", [a], ret);
    GenericRoute(e);
    assert "!" in OpTable;
    assert OpText("!") == "not";
    assert GenGeneric(e) == Ok(OpText("!") + " " + Gen(a).value);
    assert "not" + " " + Gen(a).value == "not " + Gen(a).value;
  }

  /** Elementwise connectives go through runtime helpers applied to the comma-joined
      list of all operands, and fail exactly when that list fails. */
  lemma ElementwiseForms(es: seq<Expr>, ret: Option<Expr>)
    ensures Gen(ExprList(es)).Ok? ==> Gen(Op("&", es, ret)) == Ok("logical_and(" + Gen(ExprList(es)).value + ")")
    ensures Gen(ExprList(es)).Ok? ==> Gen(Op("|", es, ret)) == Ok("logical_or(" + Gen(ExprList(es)).value + ")")
    ensures Gen(ExprList(es)).Err? ==> Gen(Op("&", es, ret)) == Gen(ExprList(es)) && Gen(Op("|", es, ret)) == Gen(ExprList(es))
  {
    ElementwiseForm("&", "logical_and(", es, ret);
    ElementwiseForm("|", "logical_or(", es, ret);
  }

  lemma ElementwiseForm(op: string, helper: string, es: seq<Expr>, ret: Option<Expr>)
    requires (op == "&" && helper == "logical_and(") || (op == "|" && helper == "logical_or(")
    ensures Gen(ExprList(es)).Ok? ==> Gen(Op(op, es, ret)) == Ok(helper + Gen(ExprList(es)).value + ")")
    ensures Gen(ExprList(es)).Err? ==> Gen(Op(op, es, ret)) == Gen(ExprList(es))
  {
    SubstringOfTilde(op);
    LogicalRoute(Op(op, es, ret));
  }

  /** Short-circuit connectives print the native keyword between the first two operands
      and fail without two operands; the left division prints `linsolve`. */
  lemma ShortCircuitForms(a: Expr, b: Expr, ret: Option<Expr>)
    requires Gen(a).Ok? && Gen(b).Ok?
    ensures Gen(Op("&&", [a, b], ret)) == Ok(Gen(a).value + " and " + Gen(b).value)
    ensures Gen(Op("||", [a, b], ret)) == Ok(Gen(a).value + " or " + Gen(b).value)
    ensures Gen(Op("&&", [a], ret)) == Err(MissingOperand("&&"))
    ensures Gen(Op("||", [a], ret)) == Err(MissingOperand("||"))
    ensures Gen(Op("&&", [], ret)) == Err(MissingOperand("&&"))
    ensures Gen(Op("||", [], ret)) == Err(MissingOperand("||"))
    ensures Gen(Op("\\", [a, b], ret)) == Ok("linsolve(" + Gen(a).value + "," + Gen(b).value + ")")
  {
    SubstringOfTilde("&&");
    SubstringOfTilde("||");
    SubstringOfTilde("\\");
    LogicalRoute(Op("&&", [a, b], ret));
    LogicalRoute(Op("||", [a, b], ret));
    LogicalRoute(Op("&&", [a], ret));
    LogicalRoute(Op("||", [a], ret));
    LogicalRoute(Op("&&", [], ret));
    LogicalRoute(Op("||", [], ret));
    LogicalRoute(Op("\\", [a, b], ret));
  }

  /** Member access: a static field name is appended to the object text, a
      parenthesised field name becomes a dynamic `getattr`. */
  lemma FieldAccessForms(obj: Expr, field: Expr, name: Expr, ret: Option<Expr>, r2: Option<Expr>)
    requires !field.Op? && Gen(obj).Ok? && Gen(field).Ok? && Gen(name).Ok?
    ensures Gen(Op(".", [obj, field], ret)) == Ok(Gen(obj).value + Gen(field).value)
    ensures Gen(Op(".", [obj, Op("parens", [name], r2)], ret))
            == Ok("getattr(" + Gen(obj).value + "," + Gen(name).value + ")")
    ensures Gen(Op(".", [obj, Op("parens", [], r2)], ret)) == Err(MissingOperand("parens"))
  {
    AccessRoute(Op(".", [obj, field], ret));
    AccessRoute(Op(".", [obj, Op("parens", [name], r2)], ret));
    AccessRoute(Op(".", [obj, Op("parens", [], r2)], ret));
  }

  /** Operators the fixed rules do not name. */
  predicate IsGenericOp(op: string)
  {
    op !in {"", "~", "&", "&&", "|", "||", "@", "\\", "::", ":", "end", ".", "parens"}
  }

  /** Such an operator takes the generic rules whatever its operands. */
  lemma GenericOpRoute(op: string, es: seq<Expr>, ret: Option<Expr>)
    requires IsGenericOp(op)
    ensures Gen(Op(op, es, ret)) == GenGeneric(Op(op, es, ret))
  {
    GenericRoute(Op(op, es, ret));
  }

  /** With no operands the operator itself is printed; with one, its table mapping
      before the operand. */
  lemma GenericUnaryForms(op: string, a: Expr, ret: Option<Expr>)
    requires IsGenericOp(op) && Gen(a).Ok?
    ensures Gen(Op(op, [], ret)) == Ok(op)
    ensures Gen(Op(op, [a], ret)) == Ok(OpText(op) + " " + Gen(a).value)
  {
    var e0, e1 := Op(op, [], ret), Op(op, [a], ret);
    GenericOpRoute(op, [], ret);
    GenericOpRoute(op, [a], ret);
  }

  /** With a `ret` and at least two operands the operator is printed as written, as a
      call on the comma-joined operands assigned to the `ret` text; the `ret` is
      translated first. */
  lemma GenericRetForm(op: string, es: seq<Expr>, r: Expr)
    requires IsGenericOp(op) && |es| >= 2
    ensures Gen(r).Ok? && Gen(ExprList(es)).Ok?
            ==> Gen(Op(op, es, Some(r))) == Ok(Gen(r).value + "=" + op + "(" + Gen(ExprList(es)).value + ")")
    ensures Gen(r).Err? ==> Gen(Op(op, es, Some(r))) == Gen(r)
    ensures Gen(r).Ok? && Gen(ExprList(es)).Err? ==> Gen(Op(op, es, Some(r))) == Gen(ExprList(es))
  {
    var e := Op(op, es, Some(r));
    GenericOpRoute(op, es, Some(r));
    GenericRetMany(e);
  }

  /** Without a `ret`, at least two operands are joined by the operator's table mapping
      in spaces; two operands print as `a op b`. */
  lemma GenericInfixForm(op: string, es: seq<Expr>)
    requires IsGenericOp(op) && |es| >= 2
    ensures GenAll(es).Ok? ==> Gen(Op(op, es, None)) == Ok(Join(GenAll(es).value, " " + OpText(op) + " "))
    ensures GenAll(es).Err? ==> Gen(Op(op, es, None)) == Err(GenAll(es).error)
    ensures |es| == 2 && Gen(es[0]).Ok? && Gen(es[1]).Ok?
            ==> Gen(Op(op, es, None)) == Ok(Gen(es[0]).value + " " + OpText(op) + " " + Gen(es[1]).value)
  {
    var e := Op(op, es, None);
    GenericOpRoute(op, es, None);
    GenericInfixMany(e);
    if |es| == 2 && Gen(es[0]).Ok? && Gen(es[1]).Ok? {
      InfixPair(op, es);
    }
  }

  lemma InfixPair(op: string, es: seq<Expr>)
    requires IsGenericOp(op) && |es| == 2 && Gen(es[0]).Ok? && Gen(es[1]).Ok?
    ensures Gen(Op(op, es, None)) == Ok(Gen(es[0]).value + " " + OpText(op) + " " + Gen(es[1]).value)
  {
    var a, b, sep := es[0], es[1], " " + OpText(op) + " ";
    assert es == [a, b];
    GenTwo(a, b, sep);
    var e := Op(op, es, None);
    GenericOpRoute(op, es, None);
    GenericInfixMany(e);
    assert Gen(a).value + sep + Gen(b).value == Gen(a).value + " " + OpText(op) + " " + Gen(b).value;
  }

  /** The remaining fixed forms: `@` prints its operand, `parens` parenthesises it,
      `:` is an `arange` call, and `end` is the end sentinel whatever its operands. */
  lemma OtherOperatorForms(a: Expr, es: seq<Expr>, ret: Option<Expr>)
    requires Gen(a).Ok?
    ensures Gen(Op("@", [a], ret)) == Gen(a)
    ensures Gen(Op("parens", [a], ret)) == Ok("(" + Gen(a).value + ")")
    ensures Gen(Op(":", [a], ret)) == Ok("arange(" + Gen(a).value + ")")
    ensures Gen(Op("end", es, ret)) == Ok("end()")
  {
    SubstringOfTilde("@");
    LogicalRoute(Op("@", [a], ret));
    AccessRoute(Op("parens", [a], ret));
    AccessRoute(Op(":", [a], ret));
    AccessRoute(Op("end", es, ret));
    GenOne(a);
  }
}

=== FILE: exprgen.dfy ===
/** The expression translator: one rule per value-producing node kind, selected by
    an exhaustive match instead of the Python backend's run-time method lookup. Expression
    rules neither read the nesting level nor touch the struct-seen set. */
module ExprGen {
  import opened Wrappers
  import opened Text
  import opened Tables
  import opened Ast

  /** Does any element of any matrix row hold a string literal? */
  predicate AnyStr(rows: seq<Row>)
  {
    exists i, j :: 0 <= i < |rows| && 0 <= j < |rows[i].items| && rows[i].items[j].Str?
  }

  function Gen(e: Expr): Result<string>
    decreases e, 3
  {
    match e
    case Number(v) => Ok(IntToString(v))
    case Str(t) => Ok("'" + t + "'")
    case Logical(v) => Ok(if v == 0 then "false" else "true")
    case Ident(name, init, _) =>
      var n := Rename(name);
      if init.Some? then
        var i :- Gen(init.value);
        Ok(n + "=" + i)
      else Ok(n)
    case Op(_, _, _) => GenOp(e)
    case Add(a, b) =>
      if a.Number? && b.Number? then Ok(IntToString(a.value + b.value))
      else
        var x :- Gen(a);
        var y :- Gen(b);
        Ok("(" + x + "+" + y + ")")
    case Sub(a, b) =>
      var x :- Gen(a);
      var y :- Gen(b);
      Ok("(" + x + "-" + y + ")")
    case Transpose(a) =>
      var x :- Gen(a);
      Ok(x + ".T")
    case ArrayRef(base, index, defProps, _) =>
      var x :- Gen(base);
      var i :- GenAll(index);
      if IsSubstring(defProps, "MW") then Ok(x + "[" + Join(i, ",") + "]")
      else Ok("take(" + x + "," + Join(i, ",") + ")")
    case CellArrayRef(base, index) =>
      var x :- Gen(base);
      var i :- GenAll(index);
      Ok(x + "[" + Join(i, ",") + "]")
    case Matrix(rows) =>
      if |rows| == 0 then Ok("matlabarray([])")
      else if AnyStr(rows) then
        var all :- GenRows(rows);
        Ok(Join(all, " + "))
      else
        var first :- GenAll(rows[0].items);
        Ok("matlabarray([" + Join(first, ",") + "])")
    case CellArray(items) =>
      var xs :- GenAll(items);
      Ok("cellarray([" + Join(xs, ",") + "])")
    case Funcall(callee, args, nargout) =>
      var f :- Gen(callee);
      var xs :- GenAll(args);
      Ok(CallText(f, xs, nargout))
    case ExprList(items) =>
      var xs :- GenAll(items);
      Ok(Join(xs, ","))
    case ConcatList(rows) =>
      var xs :- GenBracketedRows(rows);
      Ok(Join(xs, ","))
    case Builtin(name, args) =>
      var xs :- GenAll(args);
      Ok(name + "(" + Join(xs, ",") + ")")
    case Lambda(params, body) =>
      var ps :- GenAll(params);
      var b :- Gen(body);
      Ok("lambda " + Join(ps, ",") + ": " + b)
  }

  /** The call-site convention: `nargout=N` is passed exactly when N > 1, and a call
      to `eval` becomes a dynamic execution in the caller's scopes. */
  function CallText(f: string, args: seq<string>, nargout: nat): string
  {
    if f == "eval" then "exec_(" + Join(args, ",") + ", globals(), locals())"
    else if nargout == 0 || nargout == 1 then f + "(" + Join(args, ",") + ")"
    else if |args| == 0 then f + "(nargout=" + NatToString(nargout) + ")"
    else f + "(" + Join(args, ",") + ",nargout=" + NatToString(nargout) + ")"
  }

  /** Is the field selector of a `.` node a parenthesised (dynamic) name? The Python backend
      reads `args[1].op` inside a try, so a missing or non-operator selector reads as false. */
  predicate IsParensSelector(args: seq<Expr>)
  {
    |args| >= 2 && args[1].Op? && args[1].op == "parens"
  }

  /** The operators of the rule's first cases: negation, the logical connectives,
      function handles and left division. */
  predicate IsLogicalOp(op: string)
  {
    IsSubstring(op, "~") || op == "&" || op == "&&" || op == "|" || op == "||" || op == "@" || op == "\\"
  }

  /** The range operator with an operand count its own cases handle. */
  predicate IsRangeForm(op: string, n: nat)
  {
    op == "::" && (n == 0 || n == 2 || n == 3)
  }

  /** The operators of the rule's later cases: `arange`, `end`, member access, `parens`. */
  predicate IsAccessOp(op: string)
  {
    op == ":" || op == "end" || op == "." || op == "parens"
  }

  /** The rule for node.expr. Its cases are tried in the Python backend's order; the three
      groups of fixed cases are disjoint and contiguous in that order. */
  function GenOp(e: Expr): Result<string>
    requires e.Op?
    decreases e, 2
  {
    if IsLogicalOp(e.op) then GenLogical(e)
    else if IsRangeForm(e.op, |e.args|) then GenRange(e)
    else if IsAccessOp(e.op) then GenAccess(e)
    else GenGeneric(e)
  }

  function GenLogical(e: Expr): Result<string>
    requires e.Op? && IsLogicalOp(e.op)
    decreases e, 1
  {
    var op, args := e.op, e.args;
    if IsSubstring(op, "~") then
      if |args| < 1 then Err(MissingOperand(op))
      else
        var a :- Gen(args[0]);
        Ok("logical_not(" + a + ")")
    else if op == "&" then
      var xs :- GenAll(args);
      Ok("logical_and(" + Join(xs, ",") + ")")
    else if op == "&&" then
      if |args| < 2 then Err(MissingOperand(op))
      else
        var a :- Gen(args[0]);
        var b :- Gen(args[1]);
        Ok(a + " and " + b)
    else if op == "|" then
      var xs :- GenAll(args);
      Ok("logical_or(" + Join(xs, ",") + ")")
    else if op == "||" then
      if |args| < 2 then Err(MissingOperand(op))
      else
        var a :- Gen(args[0]);
        var b :- Gen(args[1]);
        Ok(a + " or " + b)
    else if op == "@" then
      if |args| < 1 then Err(MissingOperand(op))
      else Gen(args[0])
    else
      if |args| < 2 then Err(MissingOperand(op))
      else
        var a :- Gen(args[0]);
        var b :- Gen(args[1]);
        Ok("linsolve(" + a + "," + b + ")")
  }

  function GenRange(e: Expr): Result<string>
    requires e.Op? && IsRangeForm(e.op, |e.args|)
    decreases e, 1
  {
    var args := e.args;
    if |args| == 0 then Ok(":")
    else if |args| == 2 then
      var a :- Gen(args[0]);
      var b :- Gen(args[1]);
      Ok(a + ":" + b)
    else
      var a :- Gen(args[0]);
      var b :- Gen(args[2]);
      var step :- Gen(args[1]);
      Ok(a + ":" + b + ":" + step)
  }

  function GenAccess(e: Expr): Result<string>
    requires e.Op? && IsAccessOp(e.op)
    decreases e, 1
  {
    var op, args := e.op, e.args;
    if op == ":" then
      var xs :- GenAll(args);
      Ok("arange(" + Join(xs, ",") + ")")
    else if op == "end" then Ok("end()")
    else if op == "." then
      if |args| < 2 then Err(MissingOperand(op))
      else if !IsParensSelector(args) then
        var a :- Gen(args[0]);
        var b :- Gen(args[1]);
        Ok(a + b)
      else
        var a :- Gen(args[0]);
        if |args[1].args| == 0 then Err(MissingOperand("parens"))
        else
          var name :- Gen(args[1].args[0]);
          Ok("getattr(" + a + "," + name + ")")
    else
      if |args| < 1 then Err(MissingOperand(op))
      else
        var a :- Gen(args[0]);
        Ok("(" + a + ")")
  }

  /** The generic rules any other operator node falls through to (including a range
      node whose operand count is not 0, 2 or 3). */
  function GenGeneric(e: Expr): Result<string>
    requires e.Op?
    decreases e, 1
  {
    var op, args := e.op, e.args;
    if |args| == 0 then Ok(op)
    else if |args| == 1 then
      var a :- Gen(args[0]);
      Ok(OpText(op) + " " + a)
    else if e.ret.Some? then
      var r :- Gen(e.ret.value);
      var xs :- GenAll(args);
      Ok(r + "=" + op + "(" + Join(xs, ",") + ")")
    else
      var xs :- GenAll(args);
      Ok(Join(xs, " " + OpText(op) + " "))
  }

  /** Translates every expression of a list, in order; fails on the first failure. */
  function GenAll(es: seq<Expr>): Result<seq<string>>
    decreases es, 4
  {
    if |es| == 0 then Ok([])
    else
      var x :- Gen(es[0]);
      var xs :- GenAll(es[1..]);
      Ok([x] + xs)
  }

  /** Every element of every row, row by row (the string-concatenation matrix form). */
  function GenRows(rows: seq<Row>): Result<seq<string>>
    decreases rows, 4
  {
    if |rows| == 0 then Ok([])
    else
      var x :- GenAll(rows[0].items);
      var xs :- GenRows(rows[1..]);
      Ok(x + xs)
  }

  /** Every row as a bracketed, comma-joined list (node.concat_list). */
  function GenBracketedRows(rows: seq<Row>): Result<seq<string>>
    decreases rows, 4
  {
    if |rows| == 0 then Ok([])
    else
      var x :- GenAll(rows[0].items);
      var xs :- GenBracketedRows(rows[1..]);
      Ok(["[" + Join(x, ",") + "]"] + xs)
  }
}

=== FILE: exprprops.dfy ===
/** Properties of the expression translator. */
module ExprProps {
  import opened Wrappers
  import opened Text
  import opened Tables
  import opened Ast
  import opened ExprGen

  /** Text that is one integer literal: an optional minus sign, then decimal digits. */
  predicate IsIntLiteral(s: string)
  {
    |s| > 0 &&
    if s[0] == '-' then |s| > 1 && forall i :: 1 <= i < |s| ==> IsDigit(s[i])
    else forall i :: 0 <= i < |s| ==> IsDigit(s[i])
  }

  /** Reads an integer literal back. */
  function ParseInt(s: string): int
    requires IsIntLiteral(s)
  {
    if s[0] == '-' then -(ParseNat(s[1..]) as int) else ParseNat(s)
  }

  /** Which group of cases an operator node is printed by. */
  lemma LogicalRoute(e: Expr)
    requires e.Op? && IsLogicalOp(e.op)
    ensures Gen(e) == GenLogical(e)
  {
  }

  lemma RangeRoute(e: Expr)
    requires e.Op? && IsRangeForm(e.op, |e.args|)
    ensures Gen(e) == GenRange(e)
  {
    SubstringOfTilde(e.op);
  }

  lemma AccessRoute(e: Expr)
    requires e.Op? && IsAccessOp(e.op)
    ensures Gen(e) == GenAccess(e)
  {
    SubstringOfTilde(e.op);
  }

  /** An operator no fixed case names, or a range node with another operand count,
      reaches the generic rules. */
  lemma GenericRoute(e: Expr)
    requires e.Op? && !IsAccessOp(e.op) && !IsRangeForm(e.op, |e.args|)
    requires e.op != "" && e.op != "~" && e.op != "&" && e.op != "&&" && e.op != "|"
    requires e.op != "||" && e.op != "@" && e.op != "\\"
    ensures Gen(e) == GenGeneric(e)
  {
    SubstringOfTilde(e.op);
  }

  /** Adding two number literals folds to one literal that reads back as their sum. */
  lemma AddFolds(a: int, b: int)
    ensures Gen(Add(Number(a), Number(b))).Ok?
    ensures IsIntLiteral(Gen(Add(Number(a), Number(b))).value)
    ensures ParseInt(Gen(Add(Number(a), Number(b))).value) == a + b
  {
    assert Gen(Add(Number(a), Number(b))) == Ok(IntToString(a + b));
    IntToStringRoundTrip(a + b);
  }

  /** `str(i)` is an integer literal that reads back as `i`. */
  lemma IntToStringRoundTrip(i: int)
    ensures IsIntLiteral(IntToString(i)) && ParseInt(IntToString(i)) == i
  {
    var r := IntToString(i);
    if i < 0 {
      NatToStringRoundTrip(-i);
      assert r[1..] == NatToString(-i);
    } else {
      NatToStringRoundTrip(i);
    }
  }

  /** Any other addition is parenthesised infix text of its two operands. */
  lemma AddInfix(a: Expr, b: Expr)
    requires !(a.Number? && b.Number?)
    requires Gen(a).Ok? && Gen(b).Ok?
    ensures Gen(Add(a, b)) == Ok("(" + Gen(a).value + "+" + Gen(b).value + ")")
  {
  }

  /** The range operator: no operands is the full-range sentinel, [a,b] is `a:b`, and
      [a,step,b] is `a:b:step` with the middle operand moved last. */
  lemma RangeForms(a: Expr, step: Expr, b: Expr, ret: Option<Expr>)
    requires Gen(a).Ok? && Gen(step).Ok? && Gen(b).Ok?
    ensures Gen(Op("::", [], ret)) == Ok(":")
    ensures Gen(Op("::", [a, b], ret)) == Ok(Gen(a).value + ":" + Gen(b).value)
    ensures Gen(Op("::", [a, step, b], ret))
            == Ok(Gen(a).value + ":" + Gen(b).value + ":" + Gen(step).value)
  {
    RangeRoute(Op("::", [], ret));
    RangeRoute(Op("::", [a, b], ret));
    RangeRoute(Op("::", [a, step, b], ret));
  }

  /** A range node with one operand is not rejected: it falls through to the generic
      unary rule and prints the operator before its operand. */
  lemma RangeOneOperandFallsThrough(a: Expr, ret: Option<Expr>)
    requires Gen(a).Ok?
    ensures Gen(Op("::", [a], ret)) == Ok(":: " + Gen(a).value)
  {
    RangeOpUnmapped();
    var e := Op("::", [a], ret);
    GenericRoute(e);
    assert "::" + " " == ":: ";
  }

  /** A range node with more than three operands falls through to the generic rules:
      without a `ret` its operands are joined with ` :: `, with one it prints as a call
      of `::` assigned to the `ret` text. */
  lemma RangeManyOperandsFallsThrough(es: seq<Expr>, r: Expr)
    requires |es| > 3
    ensures GenAll(es).Ok? ==> Gen(Op("::", es, None)) == Ok(Join(GenAll(es).value, " :: "))
    ensures GenAll(es).Err? ==> Gen(Op("::", es, None)) == Err(GenAll(es).error)
    ensures Gen(r).Ok? && GenAll(es).Ok?
            ==> Gen(Op("::", es, Some(r))) == Ok(Gen(r).value + "=::(" + Join(GenAll(es).value, ",") + ")")
    ensures Gen(r).Err? ==> Gen(Op("::", es, Some(r))) == Err(Gen(r).error)
    ensures Gen(r).Ok? && GenAll(es).Err? ==> Gen(Op("::", es, Some(r))) == Err(GenAll(es).error)
  {
    RangeManyInfix(es);
    RangeManyRet(es, r);
  }

  lemma RangeManyInfix(es: seq<Expr>)
    requires |es| > 3
    ensures GenAll(es).Ok? ==> Gen(Op("::", es, None)) == Ok(Join(GenAll(es).value, " :: "))
    ensures GenAll(es).Err? ==> Gen(Op("::", es, None)) == Err(GenAll(es).error)
  {
    RangeManyIsGeneric(es, None);
    GenericInfixMany(Op("::", es, None));
    RangeSeparator();
  }

  lemma RangeManyRet(es: seq<Expr>, r: Expr)
    requires |es| > 3
    ensures Gen(r).Ok? && GenAll(es).Ok?
            ==> Gen(Op("::", es, Some(r))) == Ok(Gen(r).value + "=::(" + Join(GenAll(es).value, ",") + ")")
    ensures Gen(r).Err? ==> Gen(Op("::", es, Some(r))) == Err(Gen(r).error)
    ensures Gen(r).Ok? && GenAll(es).Err? ==> Gen(Op("::", es, Some(r))) == Err(GenAll(es).error)
  {
    RangeManyIsGeneric(es, Some(r));
    GenericRetMany(Op("::", es, Some(r)));
    if Gen(r).Ok? && GenAll(es).Ok? {
      RangeCallText(Gen(r).value, Join(GenAll(es).value, ","));
    }
  }

  lemma RangeCallText(x: string, xs: string)
    ensures x + "=" + "::" + "(" + xs + ")" == x + "=::(" + xs + ")"
  {
  }

  /** `::` keeps its own spelling as an infix separator. */
  lemma RangeSeparator()
    ensures " " + OpText("::") + " " == " :: "
  {
    RangeOpUnmapped();
  }

  /** With more than three operands `::` is no range form and takes the generic rule. */
  lemma RangeManyIsGeneric(es: seq<Expr>, ret: Option<Expr>)
    requires |es| > 3
    ensures Gen(Op("::", es, ret)) == GenGeneric(Op("::", es, ret))
  {
    assert !IsAccessOp("::") && !IsRangeForm("::", |es|);
    assert "::" != "" && "::" != "~" && "::" != "&" && "::" != "&&" && "::" != "|";
    assert "::" != "||" && "::" != "@" && "::" != "\\";
    GenericRoute(Op("::", es, ret));
  }

  /** The generic rule for two or more operands and no `ret`: the operand texts joined
      by the mapped operator in spaces, or the first operand failure. */
  lemma GenericInfixMany(e: Expr)
    requires e.Op? && |e.args| >= 2 && e.ret.None?
    ensures GenAll(e.args).Ok? ==> GenGeneric(e) == Ok(Join(GenAll(e.args).value, " " + OpText(e.op) + " "))
    ensures GenAll(e.args).Err? ==> GenGeneric(e) == Err(GenAll(e.args).error)
  {
  }

  /** The generic rule for two or more operands and a `ret`: a call of the operator as
      written, assigned to the `ret` text; the `ret` is translated first. */
  lemma GenericRetMany(e: Expr)
    requires e.Op? && |e.args| >= 2 && e.ret.Some?
    ensures Gen(e.ret.value).Ok? && GenAll(e.args).Ok?
            ==> GenGeneric(e) == Ok(Gen(e.ret.value).value + "=" + e.op + "(" + Join(GenAll(e.args).value, ",") + ")")
    ensures Gen(e.ret.value).Err? ==> GenGeneric(e) == Err(Gen(e.ret.value).error)
    ensures Gen(e.ret.value).Ok? && GenAll(e.args).Err? ==> GenGeneric(e) == Err(GenAll(e.args).error)
  {
  }

  /** The call-site convention as one rule: every callee but `eval` receives its argument
      texts followed by `nargout=N` exactly when N > 1, all joined by commas. */
  lemma CallSiteConvention(f: string, xs: seq<string>, nargout: nat)
    ensures f == "eval" ==> CallText(f, xs, nargout) == "exec_(" + Join(xs, ",") + ", globals(), locals())"
    ensures f != "eval" ==> CallText(f, xs, nargout) == f + "(" + Join(xs + NargoutArg(nargout), ",") + ")"
  {
    if f != "eval" && nargout > 1 {
      var k := "nargout=" + NatToString(nargout);
      if |xs| == 0 {
        assert xs + [k] == [k];
        assert f + "(" + k + ")" == f + "(nargout=" + NatToString(nargout) + ")";
      } else {
        JoinSnoc(xs, k, ",");
        assert f + "(" + (Join(xs, ",") + "," + k) + ")"
               == f + "(" + Join(xs, ",") + ",nargout=" + NatToString(nargout) + ")";
      }
    } else if f != "eval" {
      assert xs + [] == xs;
    }
  }

  /** The keyword argument a call site adds: present exactly when more than one output
      is wanted. */
  function NargoutArg(nargout: nat): (r: seq<string>)
    ensures |r| == 1 <==> nargout > 1
    ensures |r| <= 1
  {
    if nargout > 1 then ["nargout=" + NatToString(nargout)] else []
  }

  /** A call node is translated by the call-site convention on its callee's and
      arguments' texts, and fails exactly when one of those fails. */
  lemma CallNode(callee: Expr, args: seq<Expr>, nargout: nat)
    ensures Gen(Funcall(callee, args, nargout)).Ok? <==> Gen(callee).Ok? && GenAll(args).Ok?
    ensures Gen(Funcall(callee, args, nargout)).Ok?
            ==> Gen(Funcall(callee, args, nargout))
                == Ok(CallText(Gen(callee).value, GenAll(args).value, nargout))
  {
  }

  /** An identifier prints its sanitised name: a reserved name gets exactly one trailing
      underscore, any other name is unchanged. With an initialiser the sanitised name is
      followed by `=` and the initialiser's text, and the initialiser's error is the result.
      Translating the renamed node again prints the same text. */
  lemma IdentRename(name: string, init: Option<Expr>, props: string)
    ensures name in Reserved ==> Gen(Ident(name, None, props)) == Ok(name + "_")
    ensures name !in Reserved ==> Gen(Ident(name, None, props)) == Ok(name)
    ensures init.Some? && Gen(init.value).Ok?
            ==> Gen(Ident(name, init, props)) == Ok(Rename(name) + "=" + Gen(init.value).value)
    ensures init.Some? && Gen(init.value).Err? ==> Gen(Ident(name, init, props)) == Gen(init.value)
    ensures Gen(Ident(Rename(name), init, props)) == Gen(Ident(name, init, props))
  {
    RenameIdempotent(name);
  }

  /** Indexing prints native brackets exactly when the base's resolved props is a
      substring of "MW", and a `take` call otherwise. */
  lemma ArrayRefForm(base: Expr, index: seq<Expr>, defProps: string, hasDefs: bool)
    requires Gen(base).Ok? && GenAll(index).Ok?
    ensures defProps in {"", "M", "W", "MW"}
            ==> Gen(ArrayRef(base, index, defProps, hasDefs))
                == Ok(Gen(base).value + "[" + Join(GenAll(index).value, ",") + "]")
    ensures defProps !in {"", "M", "W", "MW"}
            ==> Gen(ArrayRef(base, index, defProps, hasDefs))
                == Ok("take(" + Gen(base).value + "," + Join(GenAll(index).value, ",") + ")")
  {
    SubstringOfMW(defProps);
  }

  /** `GenAll` translates elementwise: it succeeds exactly when every element does,
      with one text per element. */
  lemma {:induction false} GenAllElementwise(es: seq<Expr>)
    ensures GenAll(es).Ok? <==> forall i :: 0 <= i < |es| ==> Gen(es[i]).Ok?
    ensures GenAll(es).Ok? ==> |GenAll(es).value| == |es|
                               && forall i :: 0 <= i < |es| ==> GenAll(es).value[i] == Gen(es[i]).value
  {
    if |es| > 0 {
      GenAllElementwise(es[1..]);
      assert forall i :: 1 <= i < |es| ==> es[1..][i - 1] == es[i];
    }
  }

  /** Two lists whose elements translate alike translate alike. */
  lemma {:induction false} GenAllCongruent(xs: seq<Expr>, ys: seq<Expr>)
    requires |xs| == |ys|
    requires forall i :: 0 <= i < |xs| ==> Gen(xs[i]) == Gen(ys[i])
    ensures GenAll(xs) == GenAll(ys)
  {
    if |xs| > 0 {
      GenAllCongruent(xs[1..], ys[1..]);
    }
  }

  /** Two row lists whose rows translate alike translate alike, in both matrix forms. */
  lemma {:induction false} GenRowsCongruent(xs: seq<Row>, ys: seq<Row>)
    requires |xs| == |ys|
    requires forall i :: 0 <= i < |xs| ==> GenAll(xs[i].items) == GenAll(ys[i].items)
    ensures GenRows(xs) == GenRows(ys)
    ensures GenBracketedRows(xs) == GenBracketedRows(ys)
  {
    if |xs| > 0 {
      GenRowsCongruent(xs[1..], ys[1..]);
    }
  }
}

=== FILE: retranslation.dfy ===
/** Translation mutates its input: identifiers in the reserved table are renamed in
    place, an all-trivial block gets a `pass` appended, a chained else-if is wrapped in
    a one-statement list, and a trailing `varargin` parameter is replaced. This module
    gives the tree after translation and compares a second translation with the first. */
module Retranslation {
  import opened Wrappers
  import opened Text
  import opened Tables
  import opened Ast
  import opened ExprGen
  import opened ExprProps
  import opened StmtGen
  import opened StmtProps

  /** The expression with every identifier sanitised. */
  function RenameAll(e: Expr): (r: Expr)
    decreases e, 1
  {
    match e
    case Number(_) => e
    case Str(_) => e
    case Logical(_) => e
    case Ident(name, init, props) =>
      Ident(Rename(name), if init.Some? then Some(RenameAll(init.value)) else None, props)
    case Op(op, args, ret) =>
      Op(op, RenameEach(args), if ret.Some? then Some(RenameAll(ret.value)) else None)
    case Add(a, b) => Add(RenameAll(a), RenameAll(b))
    case Sub(a, b) => Sub(RenameAll(a), RenameAll(b))
    case Transpose(a) => Transpose(RenameAll(a))
    case ArrayRef(base, index, p, h) => ArrayRef(RenameAll(base), RenameEach(index), p, h)
    case CellArrayRef(base, index) => CellArrayRef(RenameAll(base), RenameEach(index))
    case Matrix(rows) => Matrix(RenameRows(rows))
    case CellArray(items) => CellArray(RenameEach(items))
    case Funcall(callee, args, n) => Funcall(RenameAll(callee), RenameEach(args), n)
    case ExprList(items) => ExprList(RenameEach(items))
    case ConcatList(rows) => ConcatList(RenameRows(rows))
    case Builtin(name, args) => Builtin(name, RenameEach(args))
    case Lambda(params, body) => Lambda(RenameEach(params), RenameAll(body))
  }

  function RenameEach(es: seq<Expr>): (r: seq<Expr>)
    ensures |r| == |es|
    ensures forall i :: 0 <= i < |es| ==> r[i] == RenameAll(es[i])
    decreases es, 2
  {
    seq(|es|, i requires 0 <= i < |es| => RenameAll(es[i]))
  }

  function RenameRows(rows: seq<Row>): (r: seq<Row>)
    ensures |r| == |rows|
    ensures forall i :: 0 <= i < |rows| ==> r[i] == Row(RenameEach(rows[i].items))
    decreases rows, 2
  {
    seq(|rows|, i requires 0 <= i < |rows| => Row(RenameEach(rows[i].items)))
  }

  /** Sanitising keeps the node kind, the operator and the operand count. */
  lemma RenameAllShape(e: Expr)
    ensures RenameAll(e).Str? == e.Str? && RenameAll(e).Op? == e.Op? && RenameAll(e).Number? == e.Number?
    ensures e.Op? ==> RenameAll(e).op == e.op && |RenameAll(e).args| == |e.args|
  {
  }

  /** Translating a sanitised expression prints what translating the unsanitised one printed:
      the rename decision is stable. */
  lemma {:induction false} RenameAllSameText(e: Expr)
    ensures Gen(RenameAll(e)) == Gen(e)
    decreases e, 2
  {
    match e
    case Number(_) =>
    case Str(_) =>
    case Logical(_) =>
    case Ident(_, _, _) =>
      IdentCaseSameText(e);
    case Op(_, _, _) =>
      OpCaseSameText(e);
    case Add(a, b) =>
      RenameAllShape(a);
      RenameAllShape(b);
      RenameAllSameText(a);
      RenameAllSameText(b);
    case Sub(a, b) =>
      RenameAllSameText(a);
      RenameAllSameText(b);
    case Transpose(a) =>
      RenameAllSameText(a);
    case ArrayRef(base, index, _, _) =>
      RenameAllSameText(base);
      EachSameText(index);
    case CellArrayRef(base, index) =>
      RenameAllSameText(base);
      EachSameText(index);
    case Matrix(_) =>
      RowsCaseSameText(e);
    case CellArray(items) =>
      EachSameText(items);
    case Funcall(_, _, _) =>
      CallCaseSameText(e);
    case ExprList(items) =>
      EachSameText(items);
    case ConcatList(_) =>
      RowsCaseSameText(e);
    case Builtin(_, args) =>
      EachSameText(args);
    case Lambda(params, body) =>
      EachSameText(params);
      RenameAllSameText(body);
  }

  /** The matrix and concatenation cases: the rows translate alike. */
  lemma {:induction false} RowsCaseSameText(e: Expr)
    requires e.Matrix? || e.ConcatList?
    ensures Gen(RenameAll(e)) == Gen(e)
    decreases e, 1
  {
    RowsSameText(e.rows);
  }

  /** The call case: the callee and the arguments translate alike. */
  lemma {:induction false} CallCaseSameText(e: Expr)
    requires e.Funcall?
    ensures Gen(RenameAll(e)) == Gen(e)
    decreases e, 1
  {
    RenameAllSameText(e.callee);
    EachSameText(e.args);
  }

  /** The identifier case: the renamed name is renamed to itself, and the initialiser
      translates alike. */
  lemma {:induction false} IdentCaseSameText(e: Expr)
    requires e.Ident?
    ensures Gen(RenameAll(e)) == Gen(e)
    decreases e, 1
  {
    RenameIdempotent(e.name);
    if e.init.Some? {
      RenameAllSameText(e.init.value);
    }
  }

  /** The operator case: the operands, the `ret` target and the selector's first
      operand translate alike, so the operator rule prints alike. */
  lemma {:induction false} OpCaseSameText(e: Expr)
    requires e.Op?
    ensures Gen(RenameAll(e)) == Gen(e)
    decreases e, 1
  {
    var args := e.args;
    EachSameText(args);
    if e.ret.Some? {
      RenameAllSameText(e.ret.value);
    }
    forall i | 0 <= i < |args|
      ensures RenameAll(args[i]).Op? == args[i].Op?
      ensures args[i].Op? ==> RenameAll(args[i]).op == args[i].op
                              && |RenameAll(args[i]).args| == |args[i].args|
    {
      RenameAllShape(args[i]);
    }
    if |args| >= 2 && args[1].Op? && |args[1].args| > 0 {
      RenameAllSameText(args[1].args[0]);
    }
    OpSameText(e);
  }

  lemma {:induction false} EachSameText(es: seq<Expr>)
    ensures GenAll(RenameEach(es)) == GenAll(es)
    ensures forall i :: 0 <= i < |es| ==> Gen(RenameAll(es[i])) == Gen(es[i])
    decreases es, 0
  {
    forall i | 0 <= i < |es|
      ensures Gen(RenameAll(es[i])) == Gen(es[i])
    {
      RenameAllSameText(es[i]);
    }
    GenAllCongruent(RenameEach(es), es);
  }

  lemma {:induction false} RowsSameText(rows: seq<Row>)
    ensures GenRows(RenameRows(rows)) == GenRows(rows)
    ensures GenBracketedRows(RenameRows(rows)) == GenBracketedRows(rows)
    ensures AnyStr(RenameRows(rows)) == AnyStr(rows)
    ensures |rows| > 0 ==> GenAll(RenameRows(rows)[0].items) == GenAll(rows[0].items)
    decreases rows, 0
  {
    forall i | 0 <= i < |rows|
      ensures GenAll(RenameRows(rows)[i].items) == GenAll(rows[i].items)
    {
      EachSameText(rows[i].items);
    }
    forall i, j | 0 <= i < |rows| && 0 <= j < |rows[i].items|
      ensures RenameRows(rows)[i].items[j].Str? == rows[i].items[j].Str?
    {
      RenameAllShape(rows[i].items[j]);
    }
    GenRowsCongruent(RenameRows(rows), rows);
  }

  /** Everything the operator rule reads from its node agrees between `e` and its
      sanitised copy: the operator, the operand count, the first three operands' texts,
      the whole list's texts, the `ret` text and the field selector's shape and text. */
  predicate OperandsAlike(e: Expr, e': Expr)
    requires e.Op? && e'.Op?
  {
    && e'.op == e.op && |e'.args| == |e.args| && e'.ret.Some? == e.ret.Some?
    && (|e.args| >= 1 ==> Gen(e'.args[0]) == Gen(e.args[0]))
    && (|e.args| >= 2 ==> Gen(e'.args[1]) == Gen(e.args[1]))
    && (|e.args| >= 3 ==> Gen(e'.args[2]) == Gen(e.args[2]))
    && GenAll(e'.args) == GenAll(e.args)
    && (e.ret.Some? ==> Gen(e'.ret.value) == Gen(e.ret.value))
    && IsParensSelector(e'.args) == IsParensSelector(e.args)
    && (IsParensSelector(e.args) ==> |e'.args[1].args| == |e.args[1].args|)
    && (IsParensSelector(e.args) && |e.args[1].args| > 0
        ==> Gen(e'.args[1].args[0]) == Gen(e.args[1].args[0]))
  }

  /** The operator rule, given that every operand it may translate translates alike. */
  lemma OpSameText(e: Expr)
    requires e.Op?
    requires forall i :: 0 <= i < |e.args| ==> Gen(RenameAll(e.args[i])) == Gen(e.args[i])
    requires GenAll(RenameEach(e.args)) == GenAll(e.args)
    requires e.ret.Some? ==> Gen(RenameAll(e.ret.value)) == Gen(e.ret.value)
    requires forall i :: 0 <= i < |e.args| ==> RenameAll(e.args[i]).Op? == e.args[i].Op?
    requires forall i :: 0 <= i < |e.args| && e.args[i].Op?
               ==> RenameAll(e.args[i]).op == e.args[i].op
                   && |RenameAll(e.args[i]).args| == |e.args[i].args|
    requires |e.args| >= 2 && e.args[1].Op? && |e.args[1].args| > 0
             ==> Gen(RenameAll(e.args[1].args[0])) == Gen(e.args[1].args[0])
    ensures GenOp(RenameAll(e)) == GenOp(e)
  {
    var e' := RenameAll(e);
    if IsParensSelector(e.args) && |e.args[1].args| > 0 {
      assert e'.args[1].args[0] == RenameAll(e.args[1].args[0]);
    }
    assert OperandsAlike(e, e');
    OpAlike(e, e');
  }

  /** The operator rule reads nothing but what `OperandsAlike` compares. */
  lemma OpAlike(e: Expr, e': Expr)
    requires e.Op? && e'.Op? && OperandsAlike(e, e')
    ensures GenOp(e') == GenOp(e)
  {
    if IsLogicalOp(e.op) {
      OpLogicalAlike(e, e');
    } else if IsRangeForm(e.op, |e.args|) {
      OpRangeAlike(e, e');
    } else if IsAccessOp(e.op) {
      OpOtherAlike(e, e');
    }
  }

  lemma OpLogicalAlike(e: Expr, e': Expr)
    requires e.Op? && e'.Op? && OperandsAlike(e, e') && IsLogicalOp(e.op)
    ensures GenLogical(e') == GenLogical(e)
  {
  }

  lemma OpRangeAlike(e: Expr, e': Expr)
    requires e.Op? && e'.Op? && OperandsAlike(e, e') && IsRangeForm(e.op, |e.args|)
    ensures GenRange(e') == GenRange(e)
  {
  }

  lemma OpOtherAlike(e: Expr, e': Expr)
    requires e.Op? && e'.Op? && OperandsAlike(e, e') && IsAccessOp(e.op)
    ensures GenAccess(e') == GenAccess(e)
  {
  }

  /** Translating a sequence with one more statement at the end translates the prefix as
      before and then the new statement, starting from the prefix's struct-seen set. */
  lemma {:induction false} GenStmtsSnoc(items: seq<Stmt>, x: Stmt, level: nat, structs: set<string>,
                                        opts: Options)
    ensures GenStmts(items, level, structs, opts).Err?
            ==> GenStmts(items + [x], level, structs, opts) == Err(GenStmts(items, level, structs, opts).error)
    ensures GenStmts(items, level, structs, opts).Ok? ==>
              var outs := GenStmts(items, level, structs, opts).value;
              var o := GenStmt(x, level, outs.structs, opts);
              && (o.Err? ==> GenStmts(items + [x], level, structs, opts) == Err(o.error))
              && (o.Ok? ==> GenStmts(items + [x], level, structs, opts)
                            == Ok(Outs(outs.texts + [o.value.text], o.value.structs)))
    decreases |items|
  {
    if |items| == 0 {
      assert items + [x] == [x];
      assert [x][1..] == [];
      var o := GenStmt(x, level, structs, opts);
      if o.Ok? {
        assert [o.value.text] + [] == [] + [o.value.text];
      }
    } else {
      assert (items + [x])[0] == items[0];
      assert (items + [x])[1..] == items[1..] + [x];
      var h := GenStmt(items[0], level, structs, opts);
      if h.Ok? {
        GenStmtsSnoc(items[1..], x, level, h.value.structs, opts);
        var rest := GenStmts(items[1..], level, h.value.structs, opts);
        if rest.Ok? {
          var o := GenStmt(x, level, rest.value.structs, opts);
          if o.Ok? {
            assert [h.value.text] + (rest.value.texts + [o.value.text])
                   == ([h.value.text] + rest.value.texts) + [o.value.text];
          }
        }
      }
    }
  }

  /** A block of only null statements and comments comes out of translation with a
      `pass` appended; translating it again prints the same block, without a second
      `pass`. */
  lemma PassAppendStable(items: seq<Stmt>, level: nat, structs: set<string>, opts: Options)
    requires AllTrivial(items)
    ensures !AllTrivial(items + [Pass])
    ensures GenStmt(StmtList(items + [Pass]), level, structs, opts) == GenStmt(StmtList(items), level, structs, opts)
  {
    assert (items + [Pass])[|items|] == Pass;
    GenStmtsSnoc(items, Pass, level, structs, opts);
    assert GenStmt(StmtList(items + [Pass]), level, structs, opts) == GenBlock(items + [Pass], level, structs, opts);
    assert GenStmt(StmtList(items), level, structs, opts) == GenBlock(items, level, structs, opts);
  }

  /** A chained else-if comes out of translation wrapped in a one-statement block;
      translating the wrapped form prints the same text. */
  lemma ElseIfWrapStable(cond: Expr, thenS: Stmt, inner: Stmt, level: nat, structs: set<string>,
                         opts: Options)
    requires inner.If?
    ensures GenStmt(If(cond, thenS, Some(StmtList([inner]))), level, structs, opts)
            == GenStmt(If(cond, thenS, Some(inner)), level, structs, opts)
  {
    var wrapped, plain := If(cond, thenS, Some(StmtList([inner]))), If(cond, thenS, Some(inner));
    assert IsTruthy(StmtList([inner])) && IsTruthy(inner);
    forall st: set<string>
      ensures GenElse(StmtList([inner]), level, st, opts) == GenElse(inner, level, st, opts)
    {
      SingletonBlock(inner, level + 1, st, opts);
    }
    assert GenStmt(wrapped, level, structs, opts) == GenIf(wrapped, level, structs, opts);
    assert GenStmt(plain, level, structs, opts) == GenIf(plain, level, structs, opts);
  }

  /** The variadic rewrite is not stable: the rewritten last parameter no longer names
      `varargin`, so a second translation of the same header prints `*varargin` but no
      longer binds `nargin`. */
  lemma VarargRewriteNotStable(name: Expr, params: seq<Expr>)
    requires HasVarargin(params)
    requires GenFuncStmt(name, params).Ok?
    ensures !HasVarargin(VarargParams(params))
    ensures VarargParams(VarargParams(params)) == VarargParams(params)
    ensures GenFuncStmt(name, VarargParams(params)).Ok?
    ensures EndsWith(GenFuncStmt(name, params).value.text, "\n    nargin = len(varargin)\n")
    ensures !EndsWith(GenFuncStmt(name, VarargParams(params)).value.text, "\n    nargin = len(varargin)\n")
  {
    var ps := VarargParams(params);
    assert ps[|ps| - 1] == Ident("*varargin", None, "");
    assert !HasVarargin(ps) && VarargParams(ps) == ps;
    FuncHeaderBinding(name, params);
    FuncHeaderBinding(name, ps);
  }
}

=== FILE: stmtforms.dfy ===
/** Loops, exception blocks, returns, declarations and the keyword statements, and the
    rule that only assignments and function headers touch the struct-seen set. */
module StmtForms {
  import opened Wrappers
  import opened Text
  import opened Ast
  import opened ExprGen
  import opened StmtGen
  import opened StmtProps

  /** Statements containing no assignment and no function header. */
  predicate NoStructWrites(s: Stmt)
    decreases s
  {
    match s
    case Let(_, _, _) => false
    case FuncStmt(_, _) => false
    case StmtList(items) => forall i :: 0 <= i < |items| ==> NoStructWrites(items[i])
    case If(_, t, e) => NoStructWrites(t) && (e.Some? ==> NoStructWrites(e.value))
    case For(_, _, b) => NoStructWrites(b)
    case While(_, b) => NoStructWrites(b)
    case TryCatch(t, f) => NoStructWrites(t) && NoStructWrites(f)
    case _ => true
  }

  /** Only assignments and function headers change the struct-seen set: any other
      statement, however nested, hands it on unchanged. */
  lemma {:induction false} StructsUnchanged(s: Stmt, level: nat, structs: set<string>, opts: Options)
    requires NoStructWrites(s)
    requires GenStmt(s, level, structs, opts).Ok?
    ensures GenStmt(s, level, structs, opts).value.structs == structs
    decreases s, 1
  {
    match s
    case StmtList(items) =>
      StmtsUnchanged(items, level, structs, opts);
    case If(_, t, e) =>
      assert GenStmt(s, level, structs, opts) == GenIf(s, level, structs, opts);
      StructsUnchanged(t, level + 1, structs, opts);
      if e.Some? && IsTruthy(e.value) {
        assert GenElse(e.value, level, structs, opts).Ok?;
        assert GenStmt(e.value, level + 1, structs, opts).Ok?;
        StructsUnchanged(e.value, level + 1, structs, opts);
        assert GenElse(e.value, level, structs, opts).value.structs
               == GenStmt(e.value, level + 1, structs, opts).value.structs;
      }
    case For(_, _, b) =>
      assert GenStmt(s, level, structs, opts) == GenLoop(s, level, structs, opts);
      StructsUnchanged(b, level + 1, structs, opts);
    case While(_, b) =>
      assert GenStmt(s, level, structs, opts) == GenLoop(s, level, structs, opts);
      StructsUnchanged(b, level + 1, structs, opts);
    case TryCatch(t, f) =>
      assert GenStmt(s, level, structs, opts) == GenTry(s, level, structs, opts);
      StructsUnchanged(t, level + 1, structs, opts);
      StructsUnchanged(f, level + 1, structs, opts);
    case ExprStmt(_) =>
    case Return(_) =>
    case Comment(_) =>
    case Null =>
    case Pass =>
    case Break =>
    case Continue =>
    case Global(_) =>
  }

  lemma {:induction false} StmtsUnchanged(items: seq<Stmt>, level: nat, structs: set<string>, opts: Options)
    requires forall i :: 0 <= i < |items| ==> NoStructWrites(items[i])
    requires GenStmts(items, level, structs, opts).Ok?
    ensures GenStmts(items, level, structs, opts).value.structs == structs
    decreases items, 0
  {
    if |items| > 0 {
      StructsUnchanged(items[0], level, structs, opts);
      StmtsUnchanged(items[1..], level, structs, opts);
    }
  }
  /** An `if` with an else branch that is neither an empty block nor another `if` prints
      `else:` at its own indentation and the branch one level deeper, starting from the
      set the then-branch left; it prints when the condition and both branches do. */
  lemma IfElseForm(c: Expr, t: Stmt, e: Stmt, level: nat, structs: set<string>, opts: Options)
    requires !e.If? && IsTruthy(e)
    ensures GenStmt(If(c, t, Some(e)), level, structs, opts).Ok?
            <==> Gen(c).Ok? && GenStmt(t, level + 1, structs, opts).Ok?
                 && GenStmt(e, level + 1, GenStmt(t, level + 1, structs, opts).value.structs, opts).Ok?
    ensures Gen(c).Ok? && GenStmt(t, level + 1, structs, opts).Ok?
            && GenStmt(e, level + 1, GenStmt(t, level + 1, structs, opts).value.structs, opts).Ok? ==>
              var x := GenStmt(t, level + 1, structs, opts).value;
              var y := GenStmt(e, level + 1, x.structs, opts).value;
              GenStmt(If(c, t, Some(e)), level, structs, opts)
              == Ok(Out("if " + Gen(c).value + ":" + x.text + "\n" + Spaces(4 * level) + "else:" + y.text, y.structs))
  {
    var s := If(c, t, Some(e));
    assert GenStmt(s, level, structs, opts) == GenIf(s, level, structs, opts);
    if Gen(c).Ok? && GenStmt(t, level + 1, structs, opts).Ok? {
      assert GenElse(e, level, GenStmt(t, level + 1, structs, opts).value.structs, opts)
             == GenStmt(e, level + 1, GenStmt(t, level + 1, structs, opts).value.structs, opts);
    }
  }

  /** An `if` without an else branch prints its header and the then-branch one level
      deeper, and hands on the then-branch's set. */
  lemma IfForm(c: Expr, t: Stmt, level: nat, structs: set<string>, opts: Options)
    ensures GenStmt(If(c, t, None), level, structs, opts).Ok?
            <==> Gen(c).Ok? && GenStmt(t, level + 1, structs, opts).Ok?
    ensures Gen(c).Ok? && GenStmt(t, level + 1, structs, opts).Ok? ==>
              var x := GenStmt(t, level + 1, structs, opts).value;
              GenStmt(If(c, t, None), level, structs, opts) == Ok(Out("if " + Gen(c).value + ":" + x.text, x.structs))
  {
    var s := If(c, t, None);
    assert GenStmt(s, level, structs, opts) == GenIf(s, level, structs, opts);
  }

  /** An empty else block is falsy, so it is dropped: the `if` prints as if it had none. */
  lemma EmptyElseDropped(c: Expr, t: Stmt, level: nat, structs: set<string>, opts: Options)
    ensures GenStmt(If(c, t, Some(StmtList([]))), level, structs, opts) == GenStmt(If(c, t, None), level, structs, opts)
  {
    var s1, s2 := If(c, t, Some(StmtList([]))), If(c, t, None);
    assert GenStmt(s1, level, structs, opts) == GenIf(s1, level, structs, opts);
    assert GenStmt(s2, level, structs, opts) == GenIf(s2, level, structs, opts);
  }


  /** A `for` loop iterates the flattened collection, with its body translated one
      level deeper; it fails exactly when its variable, its collection or its body fails. */
  lemma ForForm(v: Expr, it: Expr, b: Stmt, level: nat, structs: set<string>, opts: Options)
    ensures GenStmt(For(v, it, b), level, structs, opts).Ok?
            <==> Gen(v).Ok? && Gen(it).Ok? && GenStmt(b, level + 1, structs, opts).Ok?
    ensures Gen(v).Ok? && Gen(it).Ok? && GenStmt(b, level + 1, structs, opts).Ok? ==>
              var body := GenStmt(b, level + 1, structs, opts).value;
              GenStmt(For(v, it, b), level, structs, opts)
              == Ok(Out("for " + Gen(v).value + " in " + Gen(it).value + ".reshape(-1):" + body.text, body.structs))
  {
    var s := For(v, it, b);
    assert GenStmt(s, level, structs, opts) == GenLoop(s, level, structs, opts);
  }

  /** With an empty body the loop body is `pass` one level deeper. */
  lemma ForEmptyBody(v: Expr, it: Expr, level: nat, structs: set<string>, opts: Options)
    requires Gen(v).Ok? && Gen(it).Ok?
    ensures GenStmt(For(v, it, StmtList([])), level, structs, opts)
            == Ok(Out("for " + Gen(v).value + " in " + Gen(it).value + ".reshape(-1):" + Sep(level + 1) + "pass",
                      structs))
  {
    EmptyBlockIsPass(level + 1, structs, opts);
    ForForm(v, it, StmtList([]), level, structs, opts);
    var head := "for " + Gen(v).value + " in " + Gen(it).value + ".reshape(-1):";
    assert head + (Sep(level + 1) + "pass") == head + Sep(level + 1) + "pass";
  }

  /** A `while` loop puts a line break after its header and after its body, which is
      translated one level deeper; it fails exactly when its condition or body fails. */
  lemma WhileForm(c: Expr, b: Stmt, level: nat, structs: set<string>, opts: Options)
    ensures GenStmt(While(c, b), level, structs, opts).Ok?
            <==> Gen(c).Ok? && GenStmt(b, level + 1, structs, opts).Ok?
    ensures Gen(c).Ok? && GenStmt(b, level + 1, structs, opts).Ok? ==>
              var body := GenStmt(b, level + 1, structs, opts).value;
              GenStmt(While(c, b), level, structs, opts)
              == Ok(Out("while " + Gen(c).value + ":\n" + body.text + "\n", body.structs))
  {
    var s := While(c, b);
    assert GenStmt(s, level, structs, opts) == GenLoop(s, level, structs, opts);
  }

  /** So an empty body prints as a blank line, then `pass`, then a line break. */
  lemma WhileEmptyBody(c: Expr, level: nat, structs: set<string>, opts: Options)
    requires Gen(c).Ok?
    ensures GenStmt(While(c, StmtList([])), level, structs, opts)
            == Ok(Out("while " + Gen(c).value + ":\n" + Sep(level + 1) + "pass" + "\n", structs))
  {
    EmptyBlockIsPass(level + 1, structs, opts);
    WhileForm(c, StmtList([]), level, structs, opts);
    var head := "while " + Gen(c).value + ":\n";
    assert head + (Sep(level + 1) + "pass") + "\n" == head + Sep(level + 1) + "pass" + "\n";
  }

  /** A try block translates both parts one level deeper, the finally part with the
      struct-seen set the try part left, and prints `finally:` at the statement's own
      indentation; it fails exactly when one of the parts fails. */
  lemma TryForm(t: Stmt, f: Stmt, level: nat, structs: set<string>, opts: Options)
    ensures GenStmt(TryCatch(t, f), level, structs, opts).Ok?
            <==> GenStmt(t, level + 1, structs, opts).Ok?
                 && GenStmt(f, level + 1, GenStmt(t, level + 1, structs, opts).value.structs, opts).Ok?
    ensures GenStmt(t, level + 1, structs, opts).Ok?
            && GenStmt(f, level + 1, GenStmt(t, level + 1, structs, opts).value.structs, opts).Ok? ==>
              var x := GenStmt(t, level + 1, structs, opts).value;
              var y := GenStmt(f, level + 1, x.structs, opts).value;
              GenStmt(TryCatch(t, f), level, structs, opts)
              == Ok(Out("try:" + x.text + "\n" + Spaces(4 * level) + "finally:" + y.text, y.structs))
  {
    var s := TryCatch(t, f);
    assert GenStmt(s, level, structs, opts) == GenTry(s, level, structs, opts);
  }

  /** With empty parts both print `pass`. */
  lemma TryEmptyBodies(level: nat, structs: set<string>, opts: Options)
    ensures GenStmt(TryCatch(StmtList([]), StmtList([])), level, structs, opts)
            == Ok(Out("try:" + Sep(level + 1) + "pass" + "\n" + Spaces(4 * level) + "finally:"
                      + Sep(level + 1) + "pass", structs))
  {
    EmptyBlockIsPass(level + 1, structs, opts);
    TryForm(StmtList([]), StmtList([]), level, structs, opts);
    var p := Sep(level + 1) + "pass";
    assert "try:" + p + "\n" + Spaces(4 * level) + "finally:" + p
           == "try:" + Sep(level + 1) + "pass" + "\n" + Spaces(4 * level) + "finally:" + Sep(level + 1) + "pass";
  }

  /** A bare return prints the keyword; a return with a value prints it after the keyword. */
  lemma ReturnForms(e: Expr, level: nat, structs: set<string>, opts: Options)
    ensures GenStmt(Return(None), level, structs, opts) == Ok(Out("return", structs))
    ensures GenStmt(Return(Some(e)), level, structs, opts).Ok? <==> Gen(e).Ok?
    ensures Gen(e).Ok? ==> GenStmt(Return(Some(e)), level, structs, opts) == Ok(Out("return " + Gen(e).value, structs))
  {
  }

  /** A global declaration prints the comma-joined list of its names. */
  lemma GlobalForm(names: seq<Expr>, level: nat, structs: set<string>, opts: Options)
    ensures GenStmt(Global(names), level, structs, opts).Ok? <==> Gen(ExprList(names)).Ok?
    ensures Gen(ExprList(names)).Ok?
            ==> GenStmt(Global(names), level, structs, opts) == Ok(Out("global " + Gen(ExprList(names)).value, structs))
  {
  }

  /** An expression statement prints exactly its expression. */
  lemma ExprStmtForm(e: Expr, level: nat, structs: set<string>, opts: Options)
    ensures GenStmt(ExprStmt(e), level, structs, opts).Ok? <==> Gen(e).Ok?
    ensures Gen(e).Ok? ==> GenStmt(ExprStmt(e), level, structs, opts) == Ok(Out(Gen(e).value, structs))
  {
  }

  /** The loop-exit statements print their keywords. */
  lemma LoopExitForms(level: nat, structs: set<string>, opts: Options)
    ensures GenStmt(Break, level, structs, opts) == Ok(Out("break", structs))
    ensures GenStmt(Continue, level, structs, opts) == Ok(Out("continue", structs))
  {
  }

  /** The placeholder statements: `pass` prints its keyword, the null statement nothing. */
  lemma PlaceholderForms(level: nat, structs: set<string>, opts: Options)
    ensures GenStmt(Pass, level, structs, opts) == Ok(Out("pass", structs))
    ensures GenStmt(Null, level, structs, opts) == Ok(Out("", structs))
  {
  }

  /** The entry point translates at level 1: an empty program is one `pass` indented
      by four spaces. */
  lemma BackendEmptyProgram(structs: set<string>, opts: Options)
    ensures Backend(StmtList([]), structs, opts) == Ok(Out("\n    pass", structs))
  {
    EmptyBlockIsPass(1, structs, opts);
    assert Spaces(4) == "    " by {
      assert Spaces(4)[..] == [' ', ' ', ' ', ' '];
    }
    assert Sep(1) == "\n    ";
    assert "\n    " + "pass" == "\n    pass";
  }
}

=== FILE: stmtgen.dfy ===
/** The statement translator: blocks, control flow, function headers and the
    assignment (`let`) rule with its ordered lvalue cases. The struct-seen set
    (STRUCTS in matopy, a module-wide mutable set) is threaded explicitly:
    every rule takes the set before it runs and returns the set after it. */
module StmtGen {
  import opened Wrappers
  import opened Text
  import opened Tables
  import opened Ast
  import opened ExprGen

  /** The two compile-wide settings the `let` rule reads. */
  datatype Options = Options(noNumbers: bool, filename: string)

  /** A statement's text and the struct-seen set after translating it. */
  datatype Out = Out(text: string, structs: set<string>)

  /** The texts of a statement sequence and the struct-seen set after all of them. */
  datatype Outs = Outs(texts: seq<string>, structs: set<string>)

  /** The separator in front of every statement of a block at nesting `level`. */
  function Sep(level: nat): string
  {
    "\n" + Spaces(4 * level)
  }

  predicate AllTrivial(items: seq<Stmt>)
  {
    forall i :: 0 <= i < |items| ==> IsTrivial(items[i])
  }

  /** `str(node)` of the last parameter names the variadic marker. */
  predicate HasVarargin(params: seq<Expr>)
  {
    |params| > 0 && params[|params| - 1].Ident? && params[|params| - 1].name == "varargin"
  }

  /** The parameter list after the variadic rewrite. */
  function VarargParams(params: seq<Expr>): seq<Expr>
  {
    if HasVarargin(params) then params[..|params| - 1] + [Ident("*varargin", None, "")]
    else params
  }

  /** node.comment_stmt: blank comments vanish, `%` comments become `#` comments,
      any other text is kept as written (unstripped). */
  function CommentText(value: string): string
  {
    var s := Strip(value);
    if |s| == 0 then ""
    else if s[0] == '%' || s[0] == '#' then ReplaceChar(s, '%', '#')
    else value
  }

  /** The line annotation appended to every assignment unless numbers are off. */
  function LineNote(opts: Options, lineno: nat): string
  {
    if !opts.noNumbers then "\n# " + opts.filename + ":" + NatToString(lineno) else ""
  }

  /** The normalisation line put in front of a store for a base seen for the first time. */
  function CheckStruct(v: string, level: nat): string
  {
    v + " = check_struct(" + v + ")\n" + Spaces(4 * level)
  }

  /** Prepends one normalisation line per newly seen base, in iteration order. */
  function Normalise(added: seq<string>, level: nat, s: string): string
  {
    if |added| == 0 then s else Normalise(added[1..], level, CheckStruct(added[0], level) + s)
  }

  /** The struct-seen set and the newly seen bases, in insertion order. */
  datatype Seen = Seen(structs: set<string>, added: seq<string>)

  /** `add_structs`: records the base of every field target in `n`. */
  function AddStructs(n: Expr, seen: Seen): Result<Seen>
    decreases n, 5
  {
    if n.Op? && n.op == "." then
      if |n.args| == 0 then Err(MissingOperand(n.op))
      else
        var s :- Gen(n.args[0]);
        if s !in seen.structs then Ok(Seen(seen.structs + {s}, seen.added + [s]))
        else Ok(seen)
    else if n.ExprList? then AddStructsAll(n.items, seen)
    else Ok(seen)
  }

  function AddStructsAll(ns: seq<Expr>, seen: Seen): Result<Seen>
    decreases ns, 6
  {
    if |ns| == 0 then Ok(seen)
    else
      var seen' :- AddStructs(ns[0], seen);
      AddStructsAll(ns[1..], seen')
  }

  /** The dynamic field store `setattr(obj, name, value)`. */
  function SetattrForm(args: seq<Expr>, value: Expr): Result<string>
    requires IsParensSelector(args)
  {
    var a :- Gen(args[0]);
    if |args[1].args| == 0 then Err(MissingOperand("parens"))
    else
      var f :- Gen(args[1].args[0]);
      var v :- Gen(value);
      Ok("setattr(" + a + "," + f + "," + v + ")")
  }

  /** The static field store `obj.field = copy(value)`. */
  function CopyForm(args: seq<Expr>, value: Expr): Result<string>
  {
    if |args| < 2 then Err(MissingOperand("."))
    else
      var a :- Gen(args[0]);
      var f :- Gen(args[1]);
      var v :- Gen(value);
      Ok(a + f + " = copy(" + v + ")")
  }

  /** The field-store case: a parenthesised selector tries the `setattr` form and falls
      back to the copy form if building it fails; a selector that is some other
      operator node emits nothing; any other selector takes the copy form. */
  function FieldStore(args: seq<Expr>, value: Expr): Result<string>
  {
    if |args| >= 2 && args[1].Op? && args[1].op != "parens" then Ok("")
    else if IsParensSelector(args) && SetattrForm(args, value).Ok? then SetattrForm(args, value)
    else CopyForm(args, value)
  }

  /** The six ways an assignment can be printed, in the order they are tried. */
  datatype LvalueRule =
    | FieldStoreRule    // obj.field = ...
    | IdentCopyRule     // identifier := identifier
    | WriteTargetRule   // identifier with props "W"
    | GrowRule          // indexed store to a base with no definition
    | DeleteRule        // indexed store of the empty matrix
    | PlainRule         // anything else

  predicate IsFieldTarget(target: Expr)
  {
    target.Op? && target.op == "."
  }

  predicate IsEmptyMatrix(value: Expr)
  {
    value.Matrix? && |value.rows| == 0
  }

  /** The ordered guards of the assignment rule: the first that holds wins. */
  function Classify(target: Expr, value: Expr): (r: LvalueRule)
    ensures r == FieldStoreRule <==> IsFieldTarget(target)
    ensures r == IdentCopyRule <==> target.Ident? && value.Ident?
    ensures r == WriteTargetRule <==> target.Ident? && !value.Ident? && target.props == "W"
    ensures r == GrowRule <==> target.ArrayRef? && !target.baseHasDefs
    ensures r == DeleteRule <==> target.ArrayRef? && target.baseHasDefs && IsEmptyMatrix(value)
  {
    if IsFieldTarget(target) then FieldStoreRule
    else if target.Ident? && value.Ident? then IdentCopyRule
    else if target.Ident? && target.props == "W" then WriteTargetRule
    else if target.ArrayRef? && !target.baseHasDefs then GrowRule
    else if target.ArrayRef? && IsEmptyMatrix(value) then DeleteRule
    else PlainRule
  }

  /** The store text of an assignment and the bases it saw. */
  function Store(target: Expr, value: Expr, level: nat, seen: Seen): Result<(string, Seen)>
  {
    match Classify(target, value)
    case FieldStoreRule => StoreField(target, value, seen)
    case IdentCopyRule => StoreCopy(target, value, seen)
    case WriteTargetRule => StoreWrap(target, value, seen)
    case GrowRule => StoreGrow(target, value, level, seen)
    case DeleteRule => StoreDelete(target, seen)
    case PlainRule => StorePlain(target, value, seen)
  }

  function StoreField(target: Expr, value: Expr, seen: Seen): Result<(string, Seen)>
    requires IsFieldTarget(target)
  {
    var s :- FieldStore(target.args, value);
    var seen' :- AddStructs(target, seen);
    Ok((s, seen'))
  }

  function StoreCopy(target: Expr, value: Expr, seen: Seen): Result<(string, Seen)>
  {
    var t :- Gen(target);
    var v :- Gen(value);
    Ok((t + "=copy(" + v + ")", seen))
  }

  function StoreWrap(target: Expr, value: Expr, seen: Seen): Result<(string, Seen)>
  {
    var t :- Gen(target);
    var v :- Gen(value);
    Ok((t + " = matlabarray(" + v + ")", seen))
  }

  /** Indexed store to an undefined base: create an empty array first if the name is unbound. */
  function StoreGrow(target: Expr, value: Expr, level: nat, seen: Seen): Result<(string, Seen)>
    requires target.ArrayRef?
  {
    var name :- Gen(target.base);
    var key :- GenAll(target.index);
    var v :- Gen(value);
    Ok((GrowForm(name, Join(key, ","), v, level), seen))
  }

  /** The grow-on-write text. */
  function GrowForm(name: string, key: string, v: string, level: nat): string
  {
    "try: " + name + "\n" + Spaces(4 * level) + "except: " + name + " = matlabarray()\n"
    + Spaces(4 * level) + name + "[" + key + "] = " + v
  }

  /** `x(k) = []`: delete element k. */
  function StoreDelete(target: Expr, seen: Seen): Result<(string, Seen)>
    requires target.ArrayRef?
  {
    var name :- Gen(target.base);
    var key :- GenAll(target.index);
    Ok((name + " = " + name + ".delete(" + Join(key, ",") + ")", seen))
  }

  function StorePlain(target: Expr, value: Expr, seen: Seen): Result<(string, Seen)>
  {
    var t :- Gen(target);
    var v :- Gen(value);
    var seen' :- AddStructs(target, seen);
    Ok((t + "=" + v, seen'))
  }

  /** node.let: the store, preceded by a normalisation line for every base first seen
      here, followed by the optional line annotation. */
  function GenLet(target: Expr, value: Expr, lineno: nat, level: nat, structs: set<string>,
                  opts: Options): Result<Out>
  {
    var (s, seen) :- Store(target, value, level, Seen(structs, []));
    Ok(LetText(s, seen, level, lineno, opts))
  }

  /** The assignment's text from its store text and the bases it saw. */
  function LetText(s: string, seen: Seen, level: nat, lineno: nat, opts: Options): Out
  {
    Out(Normalise(seen.added, level, s) + LineNote(opts, lineno), seen.structs)
  }

  /** node.func_stmt: the decorated header; clears the struct-seen set. */
  function GenFuncStmt(name: Expr, params: seq<Expr>): Result<Out>
  {
    var n :- Gen(name);
    var ps :- GenAll(VarargParams(params));
    var bindings := if HasVarargin(params) then "\n    nargin = len(varargin)" else "";
    Ok(Out("\n@function\ndef " + n + "(" + Join(ps, ",") + "):"
           + "\n    globals().update(load_all_vars())\n" + bindings + "\n", {}))
  }

  /** The dispatcher: one rule per statement kind. */
  function GenStmt(s: Stmt, level: nat, structs: set<string>, opts: Options): Result<Out>
    decreases s, 1
  {
    match s
    case Let(target, value, lineno) => GenLet(target, value, lineno, level, structs, opts)
    case ExprStmt(e) =>
      var x :- Gen(e);
      Ok(Out(x, structs))
    case StmtList(items) => GenBlock(items, level, structs, opts)
    case If(_, _, _) => GenIf(s, level, structs, opts)
    case For(_, _, _) => GenLoop(s, level, structs, opts)
    case While(_, _) => GenLoop(s, level, structs, opts)
    case TryCatch(_, _) => GenTry(s, level, structs, opts)
    case FuncStmt(name, params) => GenFuncStmt(name, params)
    case Return(ret) =>
      if ret.None? then Ok(Out("return", structs))
      else
        var r :- Gen(ret.value);
        Ok(Out("return " + r, structs))
    case Comment(value) => Ok(Out(CommentText(value), structs))
    case Null => Ok(Out("", structs))
    case Pass => Ok(Out("pass", structs))
    case Break => Ok(Out("break", structs))
    case Continue => Ok(Out("continue", structs))
    case Global(names) =>
      var xs :- GenAll(names);
      Ok(Out("global " + Join(xs, ","), structs))
  }

  /** node.stmt_list: every statement on its own line at `level`; a block of only null
      statements and comments gets a `pass` appended. */
  function GenBlock(items: seq<Stmt>, level: nat, structs: set<string>, opts: Options): Result<Out>
    decreases items, 3
  {
    var outs :- GenStmts(items, level, structs, opts);
    var texts := if AllTrivial(items) then outs.texts + ["pass"] else outs.texts;
    Ok(Out(Sep(level) + Join(texts, Sep(level)), outs.structs))
  }

  /** node.if_stmt: the else part is printed only when the branch is truthy. */
  function GenIf(s: Stmt, level: nat, structs: set<string>, opts: Options): Result<Out>
    requires s.If?
    decreases s, 0
  {
    var c :- Gen(s.cond);
    var t :- GenStmt(s.thenS, level + 1, structs, opts);
    var head := "if " + c + ":" + t.text;
    if s.elseS.Some? && IsTruthy(s.elseS.value) then
      var el :- GenElse(s.elseS.value, level, t.structs, opts);
      Ok(Out(head + "\n" + Spaces(4 * level) + "else:" + el.text, el.structs))
    else Ok(Out(head, t.structs))
  }

  /** node.for_stmt (iterating the columns of the flattened collection) and node.while_stmt. */
  function GenLoop(s: Stmt, level: nat, structs: set<string>, opts: Options): Result<Out>
    requires s.For? || s.While?
    decreases s, 0
  {
    if s.For? then
      var x :- Gen(s.var_);
      var it :- Gen(s.iter);
      var b :- GenStmt(s.body, level + 1, structs, opts);
      Ok(Out("for " + x + " in " + it + ".reshape(-1):" + b.text, b.structs))
    else
      var c :- Gen(s.cond);
      var b :- GenStmt(s.body, level + 1, structs, opts);
      Ok(Out("while " + c + ":\n" + b.text + "\n", b.structs))
  }

  /** node.try_catch: a try block with a finally block. */
  function GenTry(s: Stmt, level: nat, structs: set<string>, opts: Options): Result<Out>
    requires s.TryCatch?
    decreases s, 0
  {
    var t :- GenStmt(s.tryS, level + 1, structs, opts);
    var f :- GenStmt(s.finallyS, level + 1, t.structs, opts);
    Ok(Out("try:" + t.text + "\n" + Spaces(4 * level) + "finally:" + f.text, f.structs))
  }

  /** The else branch at the body level of its `if`. A chained `if` is first wrapped
      in a one-statement list, which puts it on its own line one level deeper. */
  function GenElse(e: Stmt, level: nat, structs: set<string>, opts: Options): Result<Out>
    decreases e, 2
  {
    if e.If? then
      var x :- GenStmt(e, level + 1, structs, opts);
      Ok(Out(Sep(level + 1) + x.text, x.structs))
    else GenStmt(e, level + 1, structs, opts)
  }

  /** Translates a statement sequence left to right, threading the struct-seen set. */
  function GenStmts(items: seq<Stmt>, level: nat, structs: set<string>, opts: Options): (r: Result<Outs>)
    ensures r.Ok? ==> |r.value.texts| == |items|
    decreases items, 2
  {
    if |items| == 0 then Ok(Outs([], structs))
    else
      var x :- GenStmt(items[0], level, structs, opts);
      var xs :- GenStmts(items[1..], level, x.structs, opts);
      Ok(Outs([x.text] + xs.texts, xs.structs))
  }

  /** `backend(t)`: the entry point translates at level 1. */
  function Backend(s: Stmt, structs: set<string>, opts: Options): Result<Out>
  {
    GenStmt(s, 1, structs, opts)
  }
}

=== FILE: stmtprops.dfy ===
/** Properties of the statement translator and of the assignment rule. */
module StmtProps {
  import opened Wrappers
  import opened Text
  import opened Tables
  import opened Ast
  import opened ExprGen
  import opened StmtGen
  import opened ExprProps

  lemma {:induction false} PrefixedAppend(ts: seq<string>, x: string, sep: string)
    ensures Prefixed(ts + [x], sep) == Prefixed(ts, sep) + sep + x
  {
    if |ts| > 0 {
      assert (ts + [x])[1..] == ts[1..] + [x];
      PrefixedAppend(ts[1..], x, sep);
    }
  }

  /** A block puts the level's separator in front of every statement, appends a `pass`
      exactly when all its statements are null or comments, and is never empty. It
      fails exactly when one of its statements fails. */
  lemma BlockShape(items: seq<Stmt>, level: nat, structs: set<string>, opts: Options)
    ensures GenStmt(StmtList(items), level, structs, opts).Ok? <==> GenStmts(items, level, structs, opts).Ok?
    ensures GenStmts(items, level, structs, opts).Ok? ==>
              var outs := GenStmts(items, level, structs, opts).value;
              var r := GenStmt(StmtList(items), level, structs, opts).value;
              && r.text == Prefixed(outs.texts + (if AllTrivial(items) then ["pass"] else []), Sep(level))
              && r.structs == outs.structs
              && |r.text| > 0
  {
    assert GenStmt(StmtList(items), level, structs, opts) == GenBlock(items, level, structs, opts);
    var res := GenStmts(items, level, structs, opts);
    if res.Ok? {
      var outs := res.value;
      var texts := outs.texts + (if AllTrivial(items) then ["pass"] else []);
      assert |texts| > 0;
      assert outs.texts + [] == outs.texts;
      JoinPrefixed(texts, Sep(level));

    }
  }

  /** A block of only null statements and comments ends with a `pass` on its own line. */
  lemma TrivialBlockEndsInPass(items: seq<Stmt>, level: nat, structs: set<string>, opts: Options)
    requires AllTrivial(items)
    requires GenStmts(items, level, structs, opts).Ok?
    ensures GenStmt(StmtList(items), level, structs, opts).Ok?
    ensures GenStmt(StmtList(items), level, structs, opts).value.text
            == Prefixed(GenStmts(items, level, structs, opts).value.texts, Sep(level)) + Sep(level) + "pass"
  {
    BlockShape(items, level, structs, opts);
    PrefixedAppend(GenStmts(items, level, structs, opts).value.texts, "pass", Sep(level));
  }

  /** An empty block is exactly one `pass` statement. */
  lemma EmptyBlockIsPass(level: nat, structs: set<string>, opts: Options)
    ensures GenStmt(StmtList([]), level, structs, opts) == Ok(Out(Sep(level) + "pass", structs))
  {
    assert GenStmt(StmtList([]), level, structs, opts) == GenBlock([], level, structs, opts);
    assert [] + ["pass"] == ["pass"];
  }

  /** An `if` whose body is empty gets a `pass` body. */
  lemma EmptyIfBodyIsPass(cond: Expr, level: nat, structs: set<string>, opts: Options)
    requires Gen(cond).Ok?
    ensures GenStmt(If(cond, StmtList([]), None), level, structs, opts)
            == Ok(Out("if " + Gen(cond).value + ":" + Sep(level + 1) + "pass", structs))
  {
    EmptyBlockIsPass(level + 1, structs, opts);
    var s := If(cond, StmtList([]), None);
    var c := Gen(cond).value;
    assert GenStmt(s.thenS, level + 1, structs, opts) == Ok(Out(Sep(level + 1) + "pass", structs));
    assert GenIf(s, level, structs, opts) == Ok(Out("if " + c + ":" + (Sep(level + 1) + "pass"), structs));
    assert GenStmt(s, level, structs, opts) == GenIf(s, level, structs, opts);
    assert "if " + c + ":" + (Sep(level + 1) + "pass") == "if " + c + ":" + Sep(level + 1) + "pass";
  }

  /** A one-statement block holding a non-trivial statement is that statement on its own line. */
  lemma SingletonBlock(x: Stmt, level: nat, structs: set<string>, opts: Options)
    requires !IsTrivial(x)
    ensures GenStmt(x, level, structs, opts).Ok? ==>
              var o := GenStmt(x, level, structs, opts).value;
              GenStmt(StmtList([x]), level, structs, opts) == Ok(Out(Sep(level) + o.text, o.structs))
    ensures GenStmt(x, level, structs, opts).Err?
            ==> GenStmt(StmtList([x]), level, structs, opts) == Err(GenStmt(x, level, structs, opts).error)
  {
    assert GenStmt(StmtList([x]), level, structs, opts) == GenBlock([x], level, structs, opts);
    assert [x][1..] == [] && [x][0] == x;
    assert !AllTrivial([x]);
    var r := GenStmt(x, level, structs, opts);
    if r.Ok? {
      assert GenStmts([], level, r.value.structs, opts) == Ok(Outs([], r.value.structs));
      assert [r.value.text] + [] == [r.value.text];
      assert GenStmts([x], level, structs, opts) == Ok(Outs([r.value.text], r.value.structs));
      assert GenBlock([x], level, structs, opts) == Ok(Out(Sep(level) + Join([r.value.text], Sep(level)), r.value.structs));
    } else {
      assert GenStmts([x], level, structs, opts) == Err(r.error);
      assert GenBlock([x], level, structs, opts) == Err(r.error);
    }
  }

  /** A chained else-if is printed as a one-statement block: `else:` followed by the
      inner `if` on its own line one level deeper. */
  lemma ElseIfFlattened(cond: Expr, thenS: Stmt, inner: Stmt, level: nat, structs: set<string>,
                        opts: Options)
    requires inner.If?
    requires Gen(cond).Ok?
    requires GenStmt(thenS, level + 1, structs, opts).Ok?
    requires GenStmt(inner, level + 1, GenStmt(thenS, level + 1, structs, opts).value.structs, opts).Ok?
    ensures var t := GenStmt(thenS, level + 1, structs, opts).value;
            var x := GenStmt(inner, level + 1, t.structs, opts).value;
            GenStmt(If(cond, thenS, Some(inner)), level, structs, opts)
            == Ok(Out("if " + Gen(cond).value + ":" + t.text + "\n" + Spaces(4 * level) + "else:"
                      + Sep(level + 1) + x.text, x.structs))
    ensures GenElse(inner, level, structs, opts) == GenStmt(StmtList([inner]), level + 1, structs, opts)
  {
    ElseIfWrapped(inner, level, structs, opts);
    ElseIfText(cond, thenS, inner, level, structs, opts);
  }

  /** The else branch of an else-if prints as the one-statement block wrapping it. */
  lemma ElseIfWrapped(inner: Stmt, level: nat, structs: set<string>, opts: Options)
    requires inner.If?
    ensures GenElse(inner, level, structs, opts) == GenStmt(StmtList([inner]), level + 1, structs, opts)
  {
    SingletonBlock(inner, level + 1, structs, opts);
  }

  lemma ElseIfText(cond: Expr, thenS: Stmt, inner: Stmt, level: nat, structs: set<string>, opts: Options)
    requires inner.If?
    requires Gen(cond).Ok?
    requires GenStmt(thenS, level + 1, structs, opts).Ok?
    requires GenStmt(inner, level + 1, GenStmt(thenS, level + 1, structs, opts).value.structs, opts).Ok?
    ensures var t := GenStmt(thenS, level + 1, structs, opts).value;
            var x := GenStmt(inner, level + 1, t.structs, opts).value;
            GenStmt(If(cond, thenS, Some(inner)), level, structs, opts)
            == Ok(Out("if " + Gen(cond).value + ":" + t.text + "\n" + Spaces(4 * level) + "else:"
                      + Sep(level + 1) + x.text, x.structs))
  {
    var s := If(cond, thenS, Some(inner));
    var t := GenStmt(thenS, level + 1, structs, opts).value;
    var x := GenStmt(inner, level + 1, t.structs, opts).value;
    var head := "if " + Gen(cond).value + ":" + t.text;
    assert GenElse(inner, level, t.structs, opts) == Ok(Out(Sep(level + 1) + x.text, x.structs));
    assert GenStmt(s, level, structs, opts) == GenIf(s, level, structs, opts);
    ElseTextAssoc(head, Spaces(4 * level), Sep(level + 1), x.text);
  }

  lemma ElseTextAssoc(head: string, ind: string, sep: string, x: string)
    ensures head + "\n" + ind + "else:" + (sep + x) == head + "\n" + ind + "else:" + sep + x
  {
  }

  /** A field target `obj.field`. */
  function FieldTarget(obj: Expr, field: Expr): Expr
  {
    Op(".", [obj, field], None)
  }

  lemma NormaliseOne(v: string, level: nat, s: string)
    ensures Normalise([], level, s) == s
    ensures Normalise([v], level, s) == CheckStruct(v, level) + s
  {
    assert [v][1..] == [];
  }

  /** Recording the base of a field target adds it once, and only when it is new. */
  lemma AddFieldBase(target: Expr, structs: set<string>)
    requires IsFieldTarget(target) && |target.args| > 0 && Gen(target.args[0]).Ok?
    ensures var s := Gen(target.args[0]).value;
            AddStructs(target, Seen(structs, []))
            == Ok(if s in structs then Seen(structs, []) else Seen(structs + {s}, [s]))
  {
    var s := Gen(target.args[0]).value;
    assert [] + [s] == [s];
  }

  /** A store that records no base prints the store text and the annotation. */
  lemma LetKeeps(target: Expr, value: Expr, lineno: nat, level: nat, structs: set<string>,
                 opts: Options, s: string)
    requires Store(target, value, level, Seen(structs, [])) == Ok((s, Seen(structs, [])))
    ensures GenLet(target, value, lineno, level, structs, opts) == Ok(Out(s + LineNote(opts, lineno), structs))
  {
    NormaliseOne("", level, s);
    assert LetText(s, Seen(structs, []), level, lineno, opts) == Out(s + LineNote(opts, lineno), structs);
  }

  /** The text of an assignment whose store recorded one base. */
  lemma LetTextRecords(s: string, base: string, structs: set<string>, level: nat, lineno: nat, opts: Options)
    ensures LetText(s, if base in structs then Seen(structs, []) else Seen(structs + {base}, [base]),
                    level, lineno, opts)
            == Out((if base in structs then "" else CheckStruct(base, level)) + s + LineNote(opts, lineno),
                   structs + {base})
  {
    var note := LineNote(opts, lineno);
    NormaliseOne(base, level, s);
    if base in structs {
      assert structs + {base} == structs;
      assert "" + s + note == s + note;
    } else {
      assert CheckStruct(base, level) + s + note == (CheckStruct(base, level) + s) + note;
    }
  }

  /** A store that records one base puts a normalisation line for it in front of the
      store text exactly when the base is new, and hands on the grown set. */
  lemma LetRecords(target: Expr, value: Expr, lineno: nat, level: nat, structs: set<string>,
                   opts: Options, s: string, base: string)
    requires Store(target, value, level, Seen(structs, []))
             == Ok((s, if base in structs then Seen(structs, []) else Seen(structs + {base}, [base])))
    ensures GenLet(target, value, lineno, level, structs, opts)
            == Ok(Out((if base in structs then "" else CheckStruct(base, level)) + s
                      + LineNote(opts, lineno), structs + {base}))
  {
    LetTextRecords(s, base, structs, level, lineno, opts);
  }

  /** A field store prints `obj.field = copy(value)`, preceded by one `check_struct`
      line exactly when the object was not yet in the struct-seen set, and records it. */
  lemma FieldStoreNormalises(obj: Expr, field: Expr, value: Expr, lineno: nat, level: nat,
                             structs: set<string>, opts: Options)
    requires !field.Op?
    requires Gen(obj).Ok? && Gen(field).Ok? && Gen(value).Ok?
    ensures var s := Gen(obj).value;
            GenLet(FieldTarget(obj, field), value, lineno, level, structs, opts)
            == Ok(Out((if s in structs then "" else CheckStruct(s, level))
                      + s + Gen(field).value + " = copy(" + Gen(value).value + ")"
                      + LineNote(opts, lineno), structs + {s}))
  {
    var s := Gen(obj).value;
    var store := s + Gen(field).value + " = copy(" + Gen(value).value + ")";
    FieldStoreValue(obj, field, value, level, structs);
    LetRecords(FieldTarget(obj, field), value, lineno, level, structs, opts, store, s);
    CopyTextAssoc(if s in structs then "" else CheckStruct(s, level), s, Gen(field).value, Gen(value).value,
                  LineNote(opts, lineno));
  }

  lemma CopyTextAssoc(pre: string, s: string, f: string, v: string, note: string)
    ensures pre + (s + f + " = copy(" + v + ")") + note == pre + s + f + " = copy(" + v + ")" + note
  {
  }

  /** The store step of a field assignment: the copy text and the recorded base. */
  lemma FieldStoreValue(obj: Expr, field: Expr, value: Expr, level: nat, structs: set<string>)
    requires !field.Op?
    requires Gen(obj).Ok? && Gen(field).Ok? && Gen(value).Ok?
    ensures var s := Gen(obj).value;
            Store(FieldTarget(obj, field), value, level, Seen(structs, []))
            == Ok((s + Gen(field).value + " = copy(" + Gen(value).value + ")",
                   if s in structs then Seen(structs, []) else Seen(structs + {s}, [s])))
  {
    var s := Gen(obj).value;
    var t := FieldTarget(obj, field);
    var store := s + Gen(field).value + " = copy(" + Gen(value).value + ")";
    assert FieldStore(t.args, value) == Ok(store);
    AddFieldBase(t, structs);
    var seen := if s in structs then Seen(structs, []) else Seen(structs + {s}, [s]);
    assert StoreField(t, value, Seen(structs, [])) == Ok((store, seen));
  }

  /** A two-statement sequence threads the struct-seen set from the first to the second. */
  lemma Pair(a: Stmt, b: Stmt, level: nat, structs: set<string>, opts: Options)
    requires GenStmt(a, level, structs, opts).Ok?
    requires GenStmt(b, level, GenStmt(a, level, structs, opts).value.structs, opts).Ok?
    ensures var x := GenStmt(a, level, structs, opts).value;
            var y := GenStmt(b, level, x.structs, opts).value;
            GenStmts([a, b], level, structs, opts) == Ok(Outs([x.text, y.text], y.structs))
  {
    var x := GenStmt(a, level, structs, opts).value;
    var y := GenStmt(b, level, x.structs, opts).value;
    assert [a, b][1..] == [b];
    assert [b][1..] == [];
    assert GenStmts([b], level, x.structs, opts) == Ok(Outs([y.text] + [], y.structs));
    assert [y.text] + [] == [y.text];
    assert [x.text] + [y.text] == [x.text, y.text];
  }

  /** A field selector that is an operator node other than `parens` stores nothing:
      only the normalisation line (if any) and the annotation are printed. */
  lemma OperatorSelectorStoresNothing(obj: Expr, sel: Expr, value: Expr, lineno: nat, level: nat,
                                      structs: set<string>, opts: Options)
    requires sel.Op? && sel.op != "parens"
    requires Gen(obj).Ok?
    ensures var s := Gen(obj).value;
            GenLet(FieldTarget(obj, sel), value, lineno, level, structs, opts)
            == Ok(Out((if s in structs then "" else CheckStruct(s, level)) + LineNote(opts, lineno),
                      structs + {s}))
  {
    var s := Gen(obj).value;
    var t := FieldTarget(obj, sel);
    assert FieldStore(t.args, value) == Ok("");
    AddFieldBase(t, structs);
    var seen := if s in structs then Seen(structs, []) else Seen(structs + {s}, [s]);
    assert StoreField(t, value, Seen(structs, [])) == Ok(("", seen));
    assert Store(t, value, level, Seen(structs, [])) == Ok(("", seen));
    LetRecords(t, value, lineno, level, structs, opts, "", s);
    assert (if s in structs then "" else CheckStruct(s, level)) + "" == (if s in structs then "" else CheckStruct(s, level));
  }

  /** A parenthesised selector stores through `setattr(obj, name, value)`; the object is
      normalised first exactly when it is new, and is recorded. */
  lemma SetattrStore(obj: Expr, name: Expr, rest: seq<Expr>, r: Option<Expr>, value: Expr, lineno: nat,
                     level: nat, structs: set<string>, opts: Options)
    requires Gen(obj).Ok? && Gen(name).Ok? && Gen(value).Ok?
    ensures var s := Gen(obj).value;
            GenLet(FieldTarget(obj, Op("parens", [name] + rest, r)), value, lineno, level, structs, opts)
            == Ok(Out((if s in structs then "" else CheckStruct(s, level))
                      + "setattr(" + s + "," + Gen(name).value + "," + Gen(value).value + ")"
                      + LineNote(opts, lineno), structs + {s}))
  {
    var s := Gen(obj).value;
    var t := FieldTarget(obj, Op("parens", [name] + rest, r));
    var store := "setattr(" + s + "," + Gen(name).value + "," + Gen(value).value + ")";
    SetattrStoreValue(obj, name, rest, r, value, level, structs);
    LetRecords(t, value, lineno, level, structs, opts, store, s);
    SetattrTextAssoc(if s in structs then "" else CheckStruct(s, level), s, Gen(name).value, Gen(value).value,
                     LineNote(opts, lineno));
  }

  lemma SetattrStoreValue(obj: Expr, name: Expr, rest: seq<Expr>, r: Option<Expr>, value: Expr, level: nat,
                          structs: set<string>)
    requires Gen(obj).Ok? && Gen(name).Ok? && Gen(value).Ok?
    ensures var s := Gen(obj).value;
            Store(FieldTarget(obj, Op("parens", [name] + rest, r)), value, level, Seen(structs, []))
            == Ok(("setattr(" + s + "," + Gen(name).value + "," + Gen(value).value + ")",
                   if s in structs then Seen(structs, []) else Seen(structs + {s}, [s])))
  {
    var s := Gen(obj).value;
    var t := FieldTarget(obj, Op("parens", [name] + rest, r));
    var store := "setattr(" + s + "," + Gen(name).value + "," + Gen(value).value + ")";
    assert t.args[1].args[0] == name;
    assert SetattrForm(t.args, value) == Ok(store);
    assert FieldStore(t.args, value) == Ok(store);
    AddFieldBase(t, structs);
    var seen := if s in structs then Seen(structs, []) else Seen(structs + {s}, [s]);
    assert StoreField(t, value, Seen(structs, [])) == Ok((store, seen));
  }

  lemma SetattrTextAssoc(pre: string, s: string, f: string, v: string, note: string)
    ensures pre + ("setattr(" + s + "," + f + "," + v + ")") + note
            == pre + "setattr(" + s + "," + f + "," + v + ")" + note
  {
  }

  /** The fallback to the copy form never rescues a parenthesised selector: whenever the
      `setattr` form fails, the copy form fails too, so the field store fails. */
  lemma SetattrFallbackFails(obj: Expr, sel: Expr, value: Expr)
    requires sel.Op? && sel.op == "parens"
    ensures SetattrForm([obj, sel], value).Err? ==> FieldStore([obj, sel], value).Err?
  {
    AccessRoute(sel);
    if |sel.args| == 0 || Gen(sel.args[0]).Err? {
      assert Gen(sel).Err?;
    }
  }

  /** Identifier-to-identifier assignment always copies, even onto a write target. */
  lemma IdentAssignCopies(target: Expr, value: Expr, lineno: nat, level: nat,
                          structs: set<string>, opts: Options)
    requires target.Ident? && value.Ident?
    requires Gen(target).Ok? && Gen(value).Ok?
    ensures GenLet(target, value, lineno, level, structs, opts)
            == Ok(Out(Gen(target).value + "=copy(" + Gen(value).value + ")" + LineNote(opts, lineno), structs))
  {
    var st := Gen(target).value + "=copy(" + Gen(value).value + ")";
    assert Store(target, value, level, Seen(structs, [])) == Ok((st, Seen(structs, [])));
    LetKeeps(target, value, lineno, level, structs, opts, st);
  }

  /** A write target (props "W") assigned a non-identifier value is wrapped in `matlabarray`. */
  lemma WriteTargetWraps(target: Expr, value: Expr, lineno: nat, level: nat,
                         structs: set<string>, opts: Options)
    requires target.Ident? && target.props == "W" && !value.Ident?
    requires Gen(target).Ok? && Gen(value).Ok?
    ensures GenLet(target, value, lineno, level, structs, opts)
            == Ok(Out(Gen(target).value + " = matlabarray(" + Gen(value).value + ")"
                      + LineNote(opts, lineno), structs))
  {
    var st := Gen(target).value + " = matlabarray(" + Gen(value).value + ")";
    assert Store(target, value, level, Seen(structs, [])) == Ok((st, Seen(structs, [])));
    LetKeeps(target, value, lineno, level, structs, opts, st);
  }

  /** An indexed store whose base has no definition takes the grow-on-write form, even
      when the value is the empty matrix. */
  lemma UndefinedBaseGrows(base: Expr, index: seq<Expr>, defProps: string, value: Expr, lineno: nat,
                           level: nat, structs: set<string>, opts: Options)
    requires Gen(base).Ok? && GenAll(index).Ok? && Gen(value).Ok?
    ensures GenLet(ArrayRef(base, index, defProps, false), value, lineno, level, structs, opts)
            == Ok(Out(GrowForm(Gen(base).value, Join(GenAll(index).value, ","), Gen(value).value, level)
                      + LineNote(opts, lineno), structs))
    ensures GenLet(ArrayRef(base, index, defProps, false), Matrix([]), lineno, level, structs, opts)
            == Ok(Out(GrowForm(Gen(base).value, Join(GenAll(index).value, ","), "matlabarray([])", level)
                      + LineNote(opts, lineno), structs))
  {
    var t := ArrayRef(base, index, defProps, false);
    var n, k := Gen(base).value, Join(GenAll(index).value, ",");
    assert Store(t, value, level, Seen(structs, [])) == Ok((GrowForm(n, k, Gen(value).value, level), Seen(structs, [])));
    LetKeeps(t, value, lineno, level, structs, opts, GrowForm(n, k, Gen(value).value, level));
    assert Gen(Matrix([])) == Ok("matlabarray([])");
    assert Store(t, Matrix([]), level, Seen(structs, [])) == Ok((GrowForm(n, k, "matlabarray([])", level), Seen(structs, [])));
    LetKeeps(t, Matrix([]), lineno, level, structs, opts, GrowForm(n, k, "matlabarray([])", level));
  }

  /** Only a defined base assigned the empty matrix becomes an element deletion. */
  lemma DefinedBaseDeletes(base: Expr, index: seq<Expr>, defProps: string, lineno: nat,
                           level: nat, structs: set<string>, opts: Options)
    requires Gen(base).Ok? && GenAll(index).Ok?
    ensures var n := Gen(base).value;
            GenLet(ArrayRef(base, index, defProps, true), Matrix([]), lineno, level, structs, opts)
            == Ok(Out(n + " = " + n + ".delete(" + Join(GenAll(index).value, ",") + ")"
                      + LineNote(opts, lineno), structs))
  {
    var t := ArrayRef(base, index, defProps, true);
    var n, k := Gen(base).value, Join(GenAll(index).value, ",");
    var st := n + " = " + n + ".delete(" + k + ")";
    assert Store(t, Matrix([]), level, Seen(structs, [])) == Ok((st, Seen(structs, [])));
    LetKeeps(t, Matrix([]), lineno, level, structs, opts, st);
  }

  /** Any other indexed store prints `T=V` and records no base. */
  lemma PlainIndexedStore(base: Expr, index: seq<Expr>, defProps: string, value: Expr, lineno: nat,
                          level: nat, structs: set<string>, opts: Options)
    requires !IsEmptyMatrix(value)
    requires Gen(ArrayRef(base, index, defProps, true)).Ok? && Gen(value).Ok?
    ensures GenLet(ArrayRef(base, index, defProps, true), value, lineno, level, structs, opts)
            == Ok(Out(Gen(ArrayRef(base, index, defProps, true)).value + "=" + Gen(value).value
                      + LineNote(opts, lineno), structs))
  {
    var t := ArrayRef(base, index, defProps, true);
    var st := Gen(t).value + "=" + Gen(value).value;
    assert Classify(t, value) == PlainRule;
    assert AddStructs(t, Seen(structs, [])) == Ok(Seen(structs, []));
    assert Store(t, value, level, Seen(structs, [])) == Ok((st, Seen(structs, [])));
    LetKeeps(t, value, lineno, level, structs, opts, st);
  }

  /** A one-element target list records what its element records. */
  lemma SingletonListAdds(f: Expr, seen: Seen)
    requires AddStructs(f, seen).Ok?
    ensures AddStructs(ExprList([f]), seen) == AddStructs(f, seen)
  {
    assert [f][0] == f && [f][1..] == [];
    assert AddStructs(ExprList([f]), seen) == AddStructsAll([f], seen);
    assert AddStructsAll([], AddStructs(f, seen).value) == AddStructs(f, seen);
  }

  /** The plain rule prints `T=V` and records the field bases in the target. */
  lemma PlainStoreText(t: Expr, value: Expr, level: nat, seen: Seen)
    requires !IsFieldTarget(t) && !t.Ident? && !t.ArrayRef?
    requires Gen(t).Ok? && Gen(value).Ok? && AddStructs(t, seen).Ok?
    ensures Store(t, value, level, seen) == Ok((Gen(t).value + "=" + Gen(value).value, AddStructs(t, seen).value))
  {
    assert Classify(t, value) == PlainRule;
  }

  /** A multiple-assignment target list takes the plain rule, which still records the
      object of a field target among its elements and normalises it if new. */
  lemma ListTargetRecordsFieldBase(obj: Expr, field: Expr, value: Expr, lineno: nat, level: nat,
                                   structs: set<string>, opts: Options)
    requires Gen(ExprList([FieldTarget(obj, field)])).Ok? && Gen(obj).Ok? && Gen(value).Ok?
    ensures var s := Gen(obj).value;
            GenLet(ExprList([FieldTarget(obj, field)]), value, lineno, level, structs, opts)
            == Ok(Out((if s in structs then "" else CheckStruct(s, level))
                      + Gen(ExprList([FieldTarget(obj, field)])).value + "=" + Gen(value).value
                      + LineNote(opts, lineno), structs + {s}))
  {
    var s := Gen(obj).value;
    var t := ExprList([FieldTarget(obj, field)]);
    ListStoreValue(obj, field, value, level, structs);
    LetRecords(t, value, lineno, level, structs, opts, Gen(t).value + "=" + Gen(value).value, s);
    PlainTextAssoc(if s in structs then "" else CheckStruct(s, level), Gen(t).value, Gen(value).value,
                   LineNote(opts, lineno));
  }

  lemma ListStoreValue(obj: Expr, field: Expr, value: Expr, level: nat, structs: set<string>)
    requires Gen(ExprList([FieldTarget(obj, field)])).Ok? && Gen(obj).Ok? && Gen(value).Ok?
    ensures var s := Gen(obj).value;
            Store(ExprList([FieldTarget(obj, field)]), value, level, Seen(structs, []))
            == Ok((Gen(ExprList([FieldTarget(obj, field)])).value + "=" + Gen(value).value,
                   if s in structs then Seen(structs, []) else Seen(structs + {s}, [s])))
  {
    var f := FieldTarget(obj, field);
    AddFieldBase(f, structs);
    SingletonListAdds(f, Seen(structs, []));
    PlainStoreText(ExprList([f]), value, level, Seen(structs, []));
  }

  lemma PlainTextAssoc(pre: string, t: string, v: string, note: string)
    ensures pre + (t + "=" + v) + note == pre + t + "=" + v + note
  {
  }

  /** A function header binds `nargin` exactly when the last parameter is `varargin`,
      and always empties the struct-seen set. */
  lemma FuncHeaderBinding(name: Expr, params: seq<Expr>)
    requires GenFuncStmt(name, params).Ok?
    ensures GenFuncStmt(name, params).value.structs == {}
    ensures HasVarargin(params) <==> EndsWith(GenFuncStmt(name, params).value.text, "\n    nargin = len(varargin)\n")
  {
    var n := Gen(name).value;
    var ps := GenAll(VarargParams(params)).value;
    var head := "\n@function\ndef " + n + "(" + Join(ps, ",") + "):" + "\n    globals().update(load_all_vars())\n";
    var t := GenFuncStmt(name, params).value.text;
    var suffix := "\n    nargin = len(varargin)\n";
    if HasVarargin(params) {
      assert t == head + "\n    nargin = len(varargin)" + "\n";
      assert t == head + suffix;
      assert t[|t| - |suffix|..] == suffix;
    } else {
      assert t == head + "" + "\n";
      assert t[|t| - 2] == ')' || t[|t| - 2] == '\n';
      assert t[|t| - 2] == '\n';
      assert suffix[|suffix| - 2] == ')';
    }
  }

  /** After the rewrite the variadic parameter prints as `*varargin`. */
  lemma VarargParamPrinted(params: seq<Expr>)
    requires HasVarargin(params)
    requires GenAll(VarargParams(params)).Ok?
    ensures |GenAll(VarargParams(params)).value| == |params|
    ensures GenAll(VarargParams(params)).value[|params| - 1] == "*varargin"
  {
    var ps := VarargParams(params);
    assert ps[|ps| - 1] == Ident("*varargin", None, "");
    assert "*varargin" !in Reserved;
    GenAllElementwise(ps);
  }

  predicate EndsWith(s: string, suffix: string)
  {
    |suffix| <= |s| && s[|s| - |suffix|..] == suffix
  }

  /** Comments: a blank comment prints nothing, a `%` or `#` comment prints its
      stripped text with every `%` turned into `#`, and any other text is kept. */
  lemma CommentShape(value: string)
    ensures CommentText(value) == "" <==> Strip(value) == ""
    ensures |Strip(value)| > 0 && Strip(value)[0] in {'%', '#'}
            ==> |CommentText(value)| == |Strip(value)| && CommentText(value)[0] == '#'
                && forall i :: 0 <= i < |CommentText(value)| ==> CommentText(value)[i] != '%'
    ensures |Strip(value)| > 0 && Strip(value)[0] in {'%', '#'}
            ==> forall i :: 0 <= i < |CommentText(value)|
                  ==> CommentText(value)[i] == (if Strip(value)[i] == '%' then '#' else Strip(value)[i])
    ensures |Strip(value)| > 0 && Strip(value)[0] !in {'%', '#'} ==> CommentText(value) == value
  {
    if |Strip(value)| > 0 && Strip(value)[0] !in {'%', '#'} {
      var i, j :| 0 <= i <= j <= |value| && Strip(value) == value[i..j];
    }
  }
}

=== FILE: structflow.dfy ===
/** How the struct-seen set flows through a statement sequence: it only grows between
    function headers, so an object normalised once is never normalised again until the
    next header empties the set. */
module StructFlow {
  import opened Wrappers
  import opened Ast
  import opened ExprGen
  import opened StmtGen
  import opened StmtProps
  import opened StmtForms

  /** Statements containing no function header, however nested. */
  predicate NoFuncHeaders(s: Stmt)
    decreases s
  {
    match s
    case FuncStmt(_, _) => false
    case StmtList(items) => forall i :: 0 <= i < |items| ==> NoFuncHeaders(items[i])
    case If(_, t, e) => NoFuncHeaders(t) && (e.Some? ==> NoFuncHeaders(e.value))
    case For(_, _, b) => NoFuncHeaders(b)
    case While(_, b) => NoFuncHeaders(b)
    case TryCatch(t, f) => NoFuncHeaders(t) && NoFuncHeaders(f)
    case _ => true
  }

  /** Recording field bases only ever adds to the set. */
  lemma {:induction false} AddStructsGrows(n: Expr, seen: Seen)
    requires AddStructs(n, seen).Ok?
    ensures seen.structs <= AddStructs(n, seen).value.structs
    decreases n, 1
  {
    if n.Op? && n.op == "." {
    } else if n.ExprList? {
      AddStructsAllGrows(n.items, seen);
    }
  }

  lemma {:induction false} AddStructsAllGrows(ns: seq<Expr>, seen: Seen)
    requires AddStructsAll(ns, seen).Ok?
    ensures seen.structs <= AddStructsAll(ns, seen).value.structs
    decreases ns, 0
  {
    if |ns| > 0 {
      AddStructsGrows(ns[0], seen);
      AddStructsAllGrows(ns[1..], AddStructs(ns[0], seen).value);
    }
  }

  /** Every store rule keeps the bases already seen: only the field-store and plain
      rules record anything, and they only add. */
  lemma StoreGrows(target: Expr, value: Expr, level: nat, seen: Seen)
    requires Store(target, value, level, seen).Ok?
    ensures seen.structs <= Store(target, value, level, seen).value.1.structs
  {
    var rule := Classify(target, value);
    if rule == FieldStoreRule {
      assert Store(target, value, level, seen) == StoreField(target, value, seen);
      FieldRuleGrows(target, value, seen);
    } else if rule == PlainRule {
      assert Store(target, value, level, seen) == StorePlain(target, value, seen);
      PlainRuleGrows(target, value, seen);
    } else {
      assert Store(target, value, level, seen).value.1 == seen;
    }
  }

  lemma FieldRuleGrows(target: Expr, value: Expr, seen: Seen)
    requires IsFieldTarget(target) && StoreField(target, value, seen).Ok?
    ensures seen.structs <= StoreField(target, value, seen).value.1.structs
  {
    AddStructsGrows(target, seen);
  }

  lemma PlainRuleGrows(target: Expr, value: Expr, seen: Seen)
    requires StorePlain(target, value, seen).Ok?
    ensures seen.structs <= StorePlain(target, value, seen).value.1.structs
  {
    AddStructsGrows(target, seen);
  }

  /** An assignment keeps the bases already seen. */
  lemma LetGrows(target: Expr, value: Expr, lineno: nat, level: nat, structs: set<string>, opts: Options)
    requires GenLet(target, value, lineno, level, structs, opts).Ok?
    ensures structs <= GenLet(target, value, lineno, level, structs, opts).value.structs
  {
    StoreGrows(target, value, level, Seen(structs, []));
  }

  /** Between function headers the struct-seen set only grows: any statement without a
      header, however nested, keeps every base seen before it. */
  lemma {:induction false} StructsGrow(s: Stmt, level: nat, structs: set<string>, opts: Options)
    requires NoFuncHeaders(s)
    requires GenStmt(s, level, structs, opts).Ok?
    ensures structs <= GenStmt(s, level, structs, opts).value.structs
    decreases s, 1
  {
    match s
    case Let(target, value, lineno) =>
      LetGrows(target, value, lineno, level, structs, opts);
    case StmtList(items) =>
      StmtsGrow(items, level, structs, opts);
    case If(_, t, e) =>
      IfGrows(s, level, structs, opts);
    case For(v, it, b) =>
      ForForm(v, it, b, level, structs, opts);
      StructsGrow(b, level + 1, structs, opts);
    case While(c, b) =>
      WhileForm(c, b, level, structs, opts);
      StructsGrow(b, level + 1, structs, opts);
    case TryCatch(t, f) =>
      TryForm(t, f, level, structs, opts);
      StructsGrow(t, level + 1, structs, opts);
      StructsGrow(f, level + 1, GenStmt(t, level + 1, structs, opts).value.structs, opts);
    case ExprStmt(_) =>
    case Return(_) =>
    case Comment(_) =>
    case Null =>
    case Pass =>
    case Break =>
    case Continue =>
    case Global(_) =>
  }

  lemma {:induction false} IfGrows(s: Stmt, level: nat, structs: set<string>, opts: Options)
    requires s.If? && NoFuncHeaders(s)
    requires GenStmt(s, level, structs, opts).Ok?
    ensures structs <= GenStmt(s, level, structs, opts).value.structs
    decreases s, 0
  {
    assert GenStmt(s, level, structs, opts) == GenIf(s, level, structs, opts);
    StructsGrow(s.thenS, level + 1, structs, opts);
    var t := GenStmt(s.thenS, level + 1, structs, opts).value;
    if s.elseS.Some? && IsTruthy(s.elseS.value) {
      var e := s.elseS.value;
      assert GenElse(e, level, t.structs, opts).Ok?;
      assert GenStmt(e, level + 1, t.structs, opts).Ok?;
      StructsGrow(e, level + 1, t.structs, opts);
      assert GenElse(e, level, t.structs, opts).value.structs
             == GenStmt(e, level + 1, t.structs, opts).value.structs;
    }
  }

  lemma {:induction false} StmtsGrow(items: seq<Stmt>, level: nat, structs: set<string>, opts: Options)
    requires forall i :: 0 <= i < |items| ==> NoFuncHeaders(items[i])
    requires GenStmts(items, level, structs, opts).Ok?
    ensures structs <= GenStmts(items, level, structs, opts).value.structs
    decreases items, 0
  {
    if |items| > 0 {
      StructsGrow(items[0], level, structs, opts);
      StmtsGrow(items[1..], level, GenStmt(items[0], level, structs, opts).value.structs, opts);
    }
  }

  /** Translating two sequences one after the other is translating their concatenation:
      the texts are concatenated and the set is threaded from the first to the second. */
  lemma {:induction false} GenStmtsAppend(xs: seq<Stmt>, ys: seq<Stmt>, level: nat, structs: set<string>,
                                          opts: Options)
    ensures GenStmts(xs + ys, level, structs, opts).Ok?
            <==> GenStmts(xs, level, structs, opts).Ok?
                 && GenStmts(ys, level, GenStmts(xs, level, structs, opts).value.structs, opts).Ok?
    ensures GenStmts(xs + ys, level, structs, opts).Ok? ==>
              var a := GenStmts(xs, level, structs, opts).value;
              var b := GenStmts(ys, level, a.structs, opts).value;
              GenStmts(xs + ys, level, structs, opts).value == Outs(a.texts + b.texts, b.structs)
    decreases |xs|
  {
    if |xs| == 0 {
      assert xs + ys == ys;
      if GenStmts(ys, level, structs, opts).Ok? {
        assert [] + GenStmts(ys, level, structs, opts).value.texts == GenStmts(ys, level, structs, opts).value.texts;
      }
    } else {
      assert (xs + ys)[0] == xs[0];
      assert (xs + ys)[1..] == xs[1..] + ys;
      var h := GenStmt(xs[0], level, structs, opts);
      if h.Ok? {
        GenStmtsAppend(xs[1..], ys, level, h.value.structs, opts);
        var rest := GenStmts(xs[1..], level, h.value.structs, opts);
        if rest.Ok? {
          var b := GenStmts(ys, level, rest.value.structs, opts);
          if b.Ok? {
            assert [h.value.text] + (rest.value.texts + b.value.texts)
                   == ([h.value.text] + rest.value.texts) + b.value.texts;
          }
        }
      }
    }
  }

  /** A one-statement sequence is that statement. */
  lemma Single(x: Stmt, level: nat, structs: set<string>, opts: Options)
    ensures GenStmts([x], level, structs, opts).Ok? <==> GenStmt(x, level, structs, opts).Ok?
    ensures GenStmt(x, level, structs, opts).Ok? ==>
              var o := GenStmt(x, level, structs, opts).value;
              GenStmts([x], level, structs, opts).value == Outs([o.text], o.structs)
  {
    assert [x][0] == x && [x][1..] == [];
    if GenStmt(x, level, structs, opts).Ok? {
      var o := GenStmt(x, level, structs, opts).value;
      assert [o.text] + [] == [o.text];
    }
  }

  /** The struct-seen set before the statement at position `|xs|` of `xs + [x] + ys`,
      and the statement's own output. */
  lemma {:induction false} Around(xs: seq<Stmt>, x: Stmt, ys: seq<Stmt>, level: nat, structs: set<string>,
                                  opts: Options)
    requires GenStmts(xs + [x] + ys, level, structs, opts).Ok?
    ensures GenStmts(xs, level, structs, opts).Ok?
    ensures var before := GenStmts(xs, level, structs, opts).value.structs;
            && GenStmt(x, level, before, opts).Ok?
            && GenStmts(ys, level, GenStmt(x, level, before, opts).value.structs, opts).Ok?
            && GenStmts(xs + [x] + ys, level, structs, opts).value.texts[|xs|] == GenStmt(x, level, before, opts).value.text
            && GenStmts(xs + [x] + ys, level, structs, opts).value.structs
               == GenStmts(ys, level, GenStmt(x, level, before, opts).value.structs, opts).value.structs
  {
    GenStmtsAppend(xs + [x], ys, level, structs, opts);
    GenStmtsAppend(xs, [x], level, structs, opts);
    var before := GenStmts(xs, level, structs, opts).value.structs;
    Single(x, level, before, opts);
    var a := GenStmts(xs, level, structs, opts).value;
    var ax := GenStmts(xs + [x], level, structs, opts).value;
    assert ax.texts == a.texts + [GenStmt(x, level, before, opts).value.text];
    assert |a.texts| == |xs|;
  }

  /** The last statement of a sequence starts from the set its prefix left, and leaves
      the set of the whole sequence. */
  lemma Last(xs: seq<Stmt>, x: Stmt, level: nat, structs: set<string>, opts: Options)
    requires GenStmts(xs + [x], level, structs, opts).Ok?
    ensures GenStmts(xs, level, structs, opts).Ok?
    ensures var before := GenStmts(xs, level, structs, opts).value.structs;
            && GenStmt(x, level, before, opts).Ok?
            && GenStmts(xs + [x], level, structs, opts).value.texts[|xs|] == GenStmt(x, level, before, opts).value.text
            && GenStmts(xs + [x], level, structs, opts).value.structs == GenStmt(x, level, before, opts).value.structs
  {
    GenStmtsAppend(xs, [x], level, structs, opts);
    Single(x, level, GenStmts(xs, level, structs, opts).value.structs, opts);
    assert |GenStmts(xs, level, structs, opts).value.texts| == |xs|;
  }

  /** Running a sequence that ends in `x` runs the prefix first. */
  lemma PrefixOk(xs: seq<Stmt>, x: Stmt, level: nat, structs: set<string>, opts: Options)
    requires GenStmts(xs + [x], level, structs, opts).Ok?
    ensures GenStmts(xs, level, structs, opts).Ok?
  {
    Last(xs, x, level, structs, opts);
  }

  /** The last statement's output, once known from the prefix's set, is the sequence's last line and final set. */
  lemma AtEnd(xs: seq<Stmt>, x: Stmt, level: nat, structs: set<string>, opts: Options,
              seen: set<string>, out: Out)
    requires GenStmts(xs + [x], level, structs, opts).Ok?
    requires GenStmts(xs, level, structs, opts).Ok? && GenStmts(xs, level, structs, opts).value.structs == seen
    requires GenStmt(x, level, seen, opts) == Ok(out)
    ensures GenStmts(xs + [x], level, structs, opts).value.texts[|xs|] == out.text
    ensures GenStmts(xs + [x], level, structs, opts).value.structs == out.structs
  {
    Last(xs, x, level, structs, opts);
  }

  /** A field store to an object already in the set prints no normalisation line. */
  lemma SeenStoreSkipsCheck(obj: Expr, field: Expr, value: Expr, lineno: nat, level: nat,
                            structs: set<string>, opts: Options)
    requires !field.Op?
    requires Gen(obj).Ok? && Gen(field).Ok? && Gen(value).Ok?
    requires Gen(obj).value in structs
    ensures GenStmt(Let(FieldTarget(obj, field), value, lineno), level, structs, opts)
            == Ok(Out(Gen(obj).value + Gen(field).value + " = copy(" + Gen(value).value + ")" + LineNote(opts, lineno),
                      structs))
  {
    var s := Gen(obj).value;
    var st := s + Gen(field).value + " = copy(" + Gen(value).value + ")";
    FieldStoreValue(obj, field, value, level, structs);
    assert Store(FieldTarget(obj, field), value, level, Seen(structs, [])) == Ok((st, Seen(structs, [])));
    LetKeeps(FieldTarget(obj, field), value, lineno, level, structs, opts, st);
  }

  /** A field store to an object not in the set prints one normalisation line first and
      adds the object. */
  lemma NewStoreChecks(obj: Expr, field: Expr, value: Expr, lineno: nat, level: nat,
                       structs: set<string>, opts: Options)
    requires !field.Op?
    requires Gen(obj).Ok? && Gen(field).Ok? && Gen(value).Ok?
    requires Gen(obj).value !in structs
    ensures GenStmt(Let(FieldTarget(obj, field), value, lineno), level, structs, opts)
            == Ok(Out(CheckStruct(Gen(obj).value, level) + Gen(obj).value + Gen(field).value
                      + " = copy(" + Gen(value).value + ")" + LineNote(opts, lineno), structs + {Gen(obj).value}))
  {
    FieldStoreNormalises(obj, field, value, lineno, level, structs, opts);
  }

  /** After a function header and statements that write no struct, the set is empty. */
  lemma EmptyBeforeLast(pre: seq<Stmt>, name: Expr, params: seq<Expr>, mid: seq<Stmt>, b: Stmt,
                        level: nat, structs: set<string>, opts: Options)
    requires forall i :: 0 <= i < |mid| ==> NoStructWrites(mid[i])
    requires GenStmts(pre + [FuncStmt(name, params)] + mid + [b], level, structs, opts).Ok?
    ensures GenStmts(pre + [FuncStmt(name, params)] + mid, level, structs, opts).Ok?
    ensures GenStmts(pre + [FuncStmt(name, params)] + mid, level, structs, opts).value.structs == {}
  {
    PrefixOk(pre + [FuncStmt(name, params)] + mid, b, level, structs, opts);
    EmptyAfterHeader(pre, name, params, mid, level, structs, opts);
  }

  lemma EmptyAfterHeader(pre: seq<Stmt>, name: Expr, params: seq<Expr>, mid: seq<Stmt>,
                         level: nat, structs: set<string>, opts: Options)
    requires forall i :: 0 <= i < |mid| ==> NoStructWrites(mid[i])
    requires GenStmts(pre + [FuncStmt(name, params)] + mid, level, structs, opts).Ok?
    ensures GenStmts(pre + [FuncStmt(name, params)] + mid, level, structs, opts).value.structs == {}
  {
    var a := FuncStmt(name, params);
    Around(pre, a, mid, level, structs, opts);
    HeaderClears(name, params, level, GenStmts(pre, level, structs, opts).value.structs, opts);
    StmtsUnchanged(mid, level, {}, opts);
  }

  lemma HeaderClears(name: Expr, params: seq<Expr>, level: nat, before: set<string>, opts: Options)
    requires GenStmt(FuncStmt(name, params), level, before, opts).Ok?
    ensures GenStmt(FuncStmt(name, params), level, before, opts).value.structs == {}
  {
    assert GenStmt(FuncStmt(name, params), level, before, opts) == GenFuncStmt(name, params);
  }

  /** Two field stores to the same object with no function header between them: the
      second prints no normalisation line, whatever statements (including nested
      blocks and other assignments) separate them and whatever came before. */
  lemma SecondStoreSkipsCheck(pre: seq<Stmt>, obj: Expr, f1: Expr, v1: Expr, l1: nat, mid: seq<Stmt>,
                              f2: Expr, v2: Expr, l2: nat, level: nat, structs: set<string>, opts: Options)
    requires !f1.Op? && !f2.Op?
    requires Gen(obj).Ok? && Gen(f1).Ok? && Gen(v1).Ok? && Gen(f2).Ok? && Gen(v2).Ok?
    requires forall i :: 0 <= i < |mid| ==> NoFuncHeaders(mid[i])
    requires GenStmts(pre + [Let(FieldTarget(obj, f1), v1, l1)] + mid + [Let(FieldTarget(obj, f2), v2, l2)],
                      level, structs, opts).Ok?
    ensures var r := GenStmts(pre + [Let(FieldTarget(obj, f1), v1, l1)] + mid + [Let(FieldTarget(obj, f2), v2, l2)],
                              level, structs, opts).value;
            && r.texts[|pre| + 1 + |mid|]
               == Gen(obj).value + Gen(f2).value + " = copy(" + Gen(v2).value + ")" + LineNote(opts, l2)
            && Gen(obj).value in r.structs
  {
    var a, b := Let(FieldTarget(obj, f1), v1, l1), Let(FieldTarget(obj, f2), v2, l2);
    var s := Gen(obj).value;
    var txt := s + Gen(f2).value + " = copy(" + Gen(v2).value + ")" + LineNote(opts, l2);
    forall seen: set<string>
      ensures GenStmt(a, level, seen, opts).Ok? && s in GenStmt(a, level, seen, opts).value.structs
    {
      NewOrSeenRecords(obj, f1, v1, l1, level, seen, opts);
    }
    forall seen: set<string> | s in seen
      ensures GenStmt(b, level, seen, opts) == Ok(Out(txt, seen))
    {
      SeenStoreSkipsCheck(obj, f2, v2, l2, level, seen, opts);
    }
    RecordThenSkip(pre, a, mid, b, s, txt, level, structs, opts);
  }

  /** The sequence argument behind SecondStoreSkipsCheck, for any statement `a` that
      always records `s` and any statement `b` that prints `txt` and keeps the set
      whenever `s` is already in it. */
  lemma RecordThenSkip(pre: seq<Stmt>, a: Stmt, mid: seq<Stmt>, b: Stmt, s: string, txt: string,
                       level: nat, structs: set<string>, opts: Options)
    requires forall seen: set<string> :: GenStmt(a, level, seen, opts).Ok? && s in GenStmt(a, level, seen, opts).value.structs
    requires forall seen: set<string> :: s in seen ==> GenStmt(b, level, seen, opts) == Ok(Out(txt, seen))
    requires forall i :: 0 <= i < |mid| ==> NoFuncHeaders(mid[i])
    requires GenStmts(pre + [a] + mid + [b], level, structs, opts).Ok?
    ensures var r := GenStmts(pre + [a] + mid + [b], level, structs, opts).value;
            r.texts[|pre| + 1 + |mid|] == txt && s in r.structs
  {
    var p := pre + [a] + mid;
    RecordedPrefix(pre, a, mid, b, s, level, structs, opts);
    var s1 := GenStmts(p, level, structs, opts).value.structs;
    AtEnd(p, b, level, structs, opts, s1, Out(txt, s1));
    assert |p| == |pre| + 1 + |mid|;
  }

  /** Before the last statement, a statement that always records `s`, followed by
      statements with no function header, leaves `s` in the set. */
  lemma RecordedPrefix(pre: seq<Stmt>, a: Stmt, mid: seq<Stmt>, b: Stmt, s: string,
                       level: nat, structs: set<string>, opts: Options)
    requires forall seen: set<string> :: GenStmt(a, level, seen, opts).Ok? && s in GenStmt(a, level, seen, opts).value.structs
    requires forall i :: 0 <= i < |mid| ==> NoFuncHeaders(mid[i])
    requires GenStmts(pre + [a] + mid + [b], level, structs, opts).Ok?
    ensures GenStmts(pre + [a] + mid, level, structs, opts).Ok?
    ensures s in GenStmts(pre + [a] + mid, level, structs, opts).value.structs
  {
    PrefixOk(pre + [a] + mid, b, level, structs, opts);
    RecordedBefore(pre, a, mid, s, level, structs, opts);
  }

  lemma RecordedBefore(pre: seq<Stmt>, a: Stmt, mid: seq<Stmt>, s: string,
                       level: nat, structs: set<string>, opts: Options)
    requires forall seen: set<string> :: GenStmt(a, level, seen, opts).Ok? && s in GenStmt(a, level, seen, opts).value.structs
    requires forall i :: 0 <= i < |mid| ==> NoFuncHeaders(mid[i])
    requires GenStmts(pre + [a] + mid, level, structs, opts).Ok?
    ensures s in GenStmts(pre + [a] + mid, level, structs, opts).value.structs
  {
    Around(pre, a, mid, level, structs, opts);
    var before := GenStmts(pre, level, structs, opts).value.structs;
    StmtsGrow(mid, level, GenStmt(a, level, before, opts).value.structs, opts);
  }


  /** After any field store the object is in the set. */
  lemma NewOrSeenRecords(obj: Expr, field: Expr, value: Expr, lineno: nat, level: nat,
                         structs: set<string>, opts: Options)
    requires !field.Op?
    requires Gen(obj).Ok? && Gen(field).Ok? && Gen(value).Ok?
    ensures GenStmt(Let(FieldTarget(obj, field), value, lineno), level, structs, opts).Ok?
    ensures GenStmt(Let(FieldTarget(obj, field), value, lineno), level, structs, opts).value.structs
            == structs + {Gen(obj).value}
  {
    FieldStoreNormalises(obj, field, value, lineno, level, structs, opts);
  }

  /** A function header empties the set: the first field store after it normalises its
      object again, whatever was seen before the header and whatever statements without
      assignments or headers come between. */
  lemma FunctionBoundaryResets(pre: seq<Stmt>, name: Expr, params: seq<Expr>, mid: seq<Stmt>,
                               obj: Expr, field: Expr, value: Expr, lineno: nat, level: nat,
                               structs: set<string>, opts: Options)
    requires !field.Op?
    requires Gen(obj).Ok? && Gen(field).Ok? && Gen(value).Ok?
    requires forall i :: 0 <= i < |mid| ==> NoStructWrites(mid[i])
    requires GenStmts(pre + [FuncStmt(name, params)] + mid + [Let(FieldTarget(obj, field), value, lineno)],
                      level, structs, opts).Ok?
    ensures var r := GenStmts(pre + [FuncStmt(name, params)] + mid + [Let(FieldTarget(obj, field), value, lineno)],
                              level, structs, opts).value;
            && r.texts[|pre| + 1 + |mid|]
               == CheckStruct(Gen(obj).value, level) + Gen(obj).value + Gen(field).value
                  + " = copy(" + Gen(value).value + ")" + LineNote(opts, lineno)
            && r.structs == {Gen(obj).value}
  {
    var b := Let(FieldTarget(obj, field), value, lineno);
    var s := Gen(obj).value;
    var txt := CheckStruct(s, level) + s + Gen(field).value + " = copy(" + Gen(value).value + ")" + LineNote(opts, lineno);
    forall seen: set<string> | s !in seen
      ensures GenStmt(b, level, seen, opts) == Ok(Out(txt, seen + {s}))
    {
      NewStoreChecks(obj, field, value, lineno, level, seen, opts);
    }
    ResetThenCheck(pre, name, params, mid, b, s, txt, level, structs, opts);
  }

  /** The sequence argument behind FunctionBoundaryResets, for any last statement `b`
      that prints `txt` and adds `s` whenever `s` is not yet in the set. */
  lemma ResetThenCheck(pre: seq<Stmt>, name: Expr, params: seq<Expr>, mid: seq<Stmt>, b: Stmt,
                       s: string, txt: string, level: nat, structs: set<string>, opts: Options)
    requires forall seen: set<string> :: s !in seen ==> GenStmt(b, level, seen, opts) == Ok(Out(txt, seen + {s}))
    requires forall i :: 0 <= i < |mid| ==> NoStructWrites(mid[i])
    requires GenStmts(pre + [FuncStmt(name, params)] + mid + [b], level, structs, opts).Ok?
    ensures var r := GenStmts(pre + [FuncStmt(name, params)] + mid + [b], level, structs, opts).value;
            r.texts[|pre| + 1 + |mid|] == txt && r.structs == {s}
  {
    var p := pre + [FuncStmt(name, params)] + mid;
    EmptyBeforeLast(pre, name, params, mid, b, level, structs, opts);
    AtEnd(p, b, level, structs, opts, {}, Out(txt, {} + {s}));
    assert |p| == |pre| + 1 + |mid|;
    assert {} + {s} == {s};
  }
}

=== FILE: tables.dfy ===
/** The static tables of the backend: operator spellings and target reserved names. */
module Tables {
  import opened Text

  /** Source operator -> target operator text, for the operators that are spelled differently. */
  const OpTable: map<string, string> := map[
    "!" := "not",
    "~=" := "!=",
    "||" := "or",
    "&&" := "and",
    "^" := "**",
    "**" := "**",
    ".^" := "**",
    "./" := "/",
    ".*" := "*",
    ".*=" := "*",
    "./=" := "/"
  ]

  /** `optable.get(op, op)`. */
  function OpText(op: string): (r: string)
    ensures op in OpTable ==> r == OpTable[op]
    ensures op !in OpTable ==> r == op
  {
    if op in OpTable then OpTable[op] else op
  }

  /** Target keywords, builtins and runtime names a source identifier may not use. */
  const Reserved: set<string> := {
    "and", "assert", "break", "class", "continue",
    "def", "del", "elif", "else", "except",
    "exec", "finally", "for", "from", "global",
    "if", "import", "in", "is", "lambda",
    "not", "or", "pass", "print", "raise",
    "return", "try", "while", "with",
    "Data", "Float", "Int", "Numeric", "Oxphys",
    "array", "close", "float", "int", "input",
    "open", "range", "type", "write",
    "len"
  }

  predicate EndsWithUnderscore(s: string)
  {
    |s| > 0 && s[|s| - 1] == '_'
  }

  /** No reserved name ends in the marker character. */
  lemma NoReservedEndsWithUnderscore()
    ensures forall w :: w in Reserved ==> !EndsWithUnderscore(w)
  {
  }

  /** The identifier sanitizer: a reserved name gets one trailing underscore. */
  function Rename(name: string): (r: string)
    ensures name in Reserved <==> r != name
    ensures name in Reserved ==> r == name + "_"
    ensures r !in Reserved
  {
    if name in Reserved then
      assert EndsWithUnderscore(name + "_");
      NoReservedEndsWithUnderscore();
      name + "_"
    else name
  }

  /** Renaming an already renamed name changes nothing, so translating the same
      identifier node twice yields the same text. */
  lemma RenameIdempotent(name: string)
    ensures Rename(Rename(name)) == Rename(name)
  {
  }

  /** The sanitizer is not injective: a source program using both `len` and `len_`
      gets one target name for two variables. */
  lemma RenameCollision()
    ensures Rename("len") == Rename("len_") && "len" != "len_"
  {
    assert EndsWithUnderscore("len_");
    NoReservedEndsWithUnderscore();
  }

  /** The range operator has no entry of its own and prints as written. */
  lemma RangeOpUnmapped()
    ensures OpText("::") == "::"
  {
    assert "::" !in OpTable;
  }

  /** Elementwise arithmetic operators spell the same as their whole-matrix counterparts. */
  lemma ElementwiseCollapse()
    ensures OpText(".^") == OpText("^") == "**"
    ensures OpText("./") == "/" && OpText(".*") == "*"
  {
  }
}

=== FILE: text.dfy ===
/** Text primitives the generation rules are built from: Python's `str.join`,
    `in` on strings, `str.strip`, `str.replace`, `str(int)` and indentation. */
module Text {

  /** `sep.join(ts)`. */
  function Join(ts: seq<string>, sep: string): (r: string)
    ensures |ts| == 0 ==> r == ""
    ensures |ts| == 1 ==> r == ts[0]
  {
    if |ts| == 0 then ""
    else if |ts| == 1 then ts[0]
    else ts[0] + sep + Join(ts[1..], sep)
  }

  /** Independent reading of `sep + sep.join(ts)`: every element preceded by `sep`. */
  function Prefixed(ts: seq<string>, sep: string): string
  {
    if |ts| == 0 then "" else sep + ts[0] + Prefixed(ts[1..], sep)
  }

  /** For a non-empty list, `sep + sep.join(ts)` puts `sep` in front of every element. */
  lemma {:induction false} JoinPrefixed(ts: seq<string>, sep: string)
    requires |ts| > 0
    ensures sep + Join(ts, sep) == Prefixed(ts, sep)
  {
    if |ts| == 1 {
      assert Prefixed(ts[1..], sep) == "";
    } else {
      JoinPrefixed(ts[1..], sep);
      assert sep + Join(ts, sep) == sep + ts[0] + (sep + Join(ts[1..], sep));
    }
  }

  /** Joining a list with one more element appends the separator and that element. */
  lemma {:induction false} JoinSnoc(ts: seq<string>, t: string, sep: string)
    requires |ts| > 0
    ensures Join(ts + [t], sep) == Join(ts, sep) + sep + t
  {
    if |ts| == 1 {
      assert (ts + [t])[1..] == [t];
    } else {
      assert (ts + [t])[1..] == ts[1..] + [t];
      JoinSnoc(ts[1..], t, sep);
      assert ts[0] + sep + (Join(ts[1..], sep) + sep + t) == ts[0] + sep + Join(ts[1..], sep) + sep + t;
    }
  }

  /** `" " * n`. */
  function Spaces(n: nat): (r: string)
    ensures |r| == n
    ensures forall i :: 0 <= i < |r| ==> r[i] == ' '
  {
    if n == 0 then "" else " " + Spaces(n - 1)
  }

  predicate IsPrefix(p: string, s: string)
  {
    |p| <= |s| && s[..|p|] == p
  }

  /** `needle` occurs in `hay` starting at position `i`. */
  predicate OccursAt(needle: string, hay: string, i: int)
  {
    0 <= i <= |hay| - |needle| && hay[i..i + |needle|] == needle
  }

  /** An occurrence past the first position is an occurrence in the tail. */
  lemma OccursShift(needle: string, hay: string, i: int)
    requires |hay| > 0 && i > 0
    ensures OccursAt(needle, hay, i) <==> OccursAt(needle, hay[1..], i - 1)
  {
    if 0 <= i <= |hay| - |needle| {
      var a, b := hay[i..i + |needle|], hay[1..][i - 1..i - 1 + |needle|];
      assert forall k :: 0 <= k < |a| ==> a[k] == b[k];
      assert a == b;
    }
  }

  /** Python's `needle in hay` on two strings: a substring test. */
  function IsSubstring(needle: string, hay: string): (r: bool)
    ensures r <==> exists i :: OccursAt(needle, hay, i)
    decreases |hay|
  {
    if IsPrefix(needle, hay) then
      assert OccursAt(needle, hay, 0);
      true
    else if |hay| == 0 then
      assert forall i :: !OccursAt(needle, hay, i);
      false
    else
      var r := IsSubstring(needle, hay[1..]);
      if r then
        var i :| OccursAt(needle, hay[1..], i);
        OccursShift(needle, hay, i + 1);
        true
      else
        forall i | OccursAt(needle, hay, i)
          ensures false
        {
          if i > 0 {
            OccursShift(needle, hay, i);
          }
        }
        false
  }

  /** The substrings of "MW" are exactly the empty string, "M", "W" and "MW". */
  lemma SubstringOfMW(p: string)
    ensures IsSubstring(p, "MW") <==> p in {"", "M", "W", "MW"}
  {
    assert "MW"[0..0] == "" && "MW"[0..1] == "M" && "MW"[1..2] == "W" && "MW"[0..2] == "MW";
    if p in {"", "M", "W", "MW"} {
      assert OccursAt(p, "MW", if p == "W" then 1 else 0);
    }
    if IsSubstring(p, "MW") {
      var i :| OccursAt(p, "MW", i);
      assert |p| <= 2;
    }
  }

  /** The substrings of "~" are exactly the empty string and "~". */
  lemma SubstringOfTilde(p: string)
    ensures IsSubstring(p, "~") <==> p == "" || p == "~"
  {
    assert "~"[0..0] == "" && "~"[0..1] == "~";
    if p == "" || p == "~" {
      assert OccursAt(p, "~", 0);
    }
    if IsSubstring(p, "~") {
      var i :| OccursAt(p, "~", i);
      assert |p| <= 1;
    }
  }

  /** The characters Python 3's `str.strip()` removes: those `str.isspace()` accepts. */
  predicate IsSpace(c: char)
  {
    || 9 <= c as int <= 13          // tab, line feed, vertical tab, form feed, carriage return
    || 0x1C <= c as int <= 0x20     // file, group, record and unit separators; space
    || c as int == 0x85 || c as int == 0xA0 || c as int == 0x1680
    || 0x2000 <= c as int <= 0x200A
    || c as int == 0x2028 || c as int == 0x2029 || c as int == 0x202F || c as int == 0x205F
    || c as int == 0x3000
  }

  function StripLeft(s: string): (r: string)
    ensures |r| <= |s| && r == s[|s| - |r|..]
    ensures |r| > 0 ==> !IsSpace(r[0])
    ensures forall i :: 0 <= i < |s| - |r| ==> IsSpace(s[i])
  {
    if |s| > 0 && IsSpace(s[0]) then StripLeft(s[1..]) else s
  }

  function StripRight(s: string): (r: string)
    ensures |r| <= |s| && r == s[..|r|]
    ensures |r| > 0 ==> !IsSpace(r[|r| - 1])
    ensures forall i :: |r| <= i < |s| ==> IsSpace(s[i])
  {
    if |s| > 0 && IsSpace(s[|s| - 1]) then StripRight(s[..|s| - 1]) else s
  }

  /** `s.strip()`: the longest slice of `s` that neither starts nor ends with whitespace,
      everything cut off being whitespace. */
  function Strip(s: string): (r: string)
    ensures |r| > 0 ==> !IsSpace(r[0]) && !IsSpace(r[|r| - 1])
    ensures exists i, j :: 0 <= i <= j <= |s| && r == s[i..j]
                           && (forall k :: 0 <= k < i ==> IsSpace(s[k]))
                           && (forall k :: j <= k < |s| ==> IsSpace(s[k]))
  {
    var l := StripLeft(s);
    var r := StripRight(l);
    var i := |s| - |l|;
    assert r == s[i..i + |r|];
    r
  }

  /** `s.replace(a, b)` for one-character `a` and `b`. */
  function ReplaceChar(s: string, a: char, b: char): (r: string)
    ensures |r| == |s|
    ensures forall i :: 0 <= i < |s| ==> r[i] == (if s[i] == a then b else s[i])
  {
    if |s| == 0 then "" else [if s[0] == a then b else s[0]] + ReplaceChar(s[1..], a, b)
  }

  function DigitChar(d: nat): char
    requires d < 10
  {
    "0123456789"[d]
  }

  predicate IsDigit(c: char)
  {
    '0' <= c <= '9'
  }

  /** `str(n)` for a non-negative integer: decimal digits, no leading zero. */
  function NatToString(n: nat): (r: string)
    ensures |r| >= 1
    ensures forall i :: 0 <= i < |r| ==> IsDigit(r[i])
    ensures |r| > 1 ==> r[0] != '0'
    ensures n < 10 <==> |r| == 1
  {
    if n < 10 then [DigitChar(n)] else NatToString(n / 10) + [DigitChar(n % 10)]
  }

  /** Reads a string of decimal digits back as a number. */
  function ParseNat(s: string): nat
    requires forall i :: 0 <= i < |s| ==> IsDigit(s[i])
  {
    if |s| == 0 then 0
    else
      var c := s[|s| - 1];
      assert IsDigit(c);
      10 * ParseNat(s[..|s| - 1]) + (c as int - '0' as int)
  }

  /** `str(n)` is read back as `n`: the rendering loses no information. */
  lemma {:induction false} NatToStringRoundTrip(n: nat)
    ensures ParseNat(NatToString(n)) == n
  {
    if n >= 10 {
      NatToStringRoundTrip(n / 10);
      var s := NatToString(n);
      assert s[..|s| - 1] == NatToString(n / 10);
    }
  }

  /** `str(i)` for any integer. */
  function IntToString(i: int): (r: string)
    ensures i >= 0 ==> r == NatToString(i)
    ensures i < 0 ==> r == "-" + NatToString(-i)
  {
    if i < 0 then "-" + NatToString(-i) else NatToString(i)
  }
}

=== FILE: wrappers.dfy ===
/** Failure-compatible result type used by every generation rule.
    The translator is fail-fast: a node whose operands are missing makes the
    rule raise, and the error propagates uncaught to the caller. */
module Wrappers {

  /** The structural errors a rule can raise. The only one the rules can reach
      is an operand that is indexed but absent (an IndexError in the Python backend). */
  datatype Error = MissingOperand(construct: string)

  datatype Option<+T> = None | Some(value: T)

  datatype Result<+T> = Ok(value: T) | Err(error: Error) {

    predicate IsFailure() {
      Err?
    }

    function PropagateFailure<U>(): Result<U>
      requires Err?
    {
      Err(error)
    }

    function Extract(): T
      requires Ok?
    {
      value
    }
  }
}
